=== FILE: README.md ===
# First-aid tracker: a Dafny model of its decision logic

The first-aid tracker stores first-aid kits. Each kit is a list of items with
expiry dates. It serves them through a small HTTP API and two browser pages,
and a scheduled job archives copies of the server's data files. This project
models the decision logic inside that code as immutable datatypes and pure
functions, and proves properties of them. The logic comes in four groups:

- **The download job** (`pinger_scheduled.py`, modules `Archive` and
  `Snapshots`). Each run archives the kit dataset whenever its download
  succeeds, with no save rule, under a name stamped with the capture time.
  It archives the item catalogue only when the `should_save` rule says so.
  That rule compares the downloaded `last_edited` stamp with the stamp in
  the newest earlier archive, which it picks as the greatest qualifying file
  name.
- **The kit store** (`main.py`, module `KitStore`): reading the data file,
  and the get, add, remove and list-all operations over the map from kit id
  to item list.
- **The catalogue editing page** (`static/edit_items.js`, module
  `EditItems`): the CSS class-name sanitiser, grouping by category, the order
  of the category groups, the category dropdown, the sort-column toggle and
  the per-group item sort.
- **The kit page** (`static/app.js`, module `KitPage`): the expiry status of
  an item, the route read from the page path, the navigation `enterKit`
  performs, which view `showView` displays, and the numbered, date-ordered
  item tables.

Four shared modules support them:

- `Wrappers` holds `Option` and `Result`.
- `Strings` holds code-point lexicographic order and the default string sort
  order built on it, JavaScript whitespace, `trim`, and joining strings with a
  separator.
- `Sorting` holds a stable insertion sort. Under any relation it returns a
  permutation of its input. Under a total preorder its result is also ordered.
  It also holds the generic sequence helpers the pages share: freedom from
  repeats and the index of a first occurrence.
- `Snapshots` holds the `YYYYMMDD_HHMMSS` capture stamps and the archive
  names built from them.

The job only downloads and archives; it has no push, watermark or commit step.

Data are immutable values. An operation returns a new value, so the
read-only operations (`get_kit_items`, `sortItems`) cannot change their
input.

Effects become parameters:

- HTTP responses are `Download` values (`DownloadFailed` or `Downloaded`).
- A directory listing is a sequence of names.
- File reads are a function from file name to its parsed content.
- The clock is a `Stamp` for the job and an integer instant for the page.
- `datetime.fromisoformat` is an opaque partial parser `fromIso`.
- `new Date(expiry_date)` is a function `dateOf`.
- `localeCompare` is an abstract strict total order.
- The column comparator of `sortItems` is an abstract integer-valued
  function.

## Model

| member | source | states |
|---|---|---|
| Archive.ParseTimestamp | pinger_scheduled.py:10-16 | An absent or empty `last_edited` parses to nothing. A non-empty string gets exactly the ISO parser's verdict: its instant, or nothing when the parser rejects it. |
| Archive.ExistingVersions | pinger_scheduled.py:54 | A listed name is a candidate version iff it starts with `firstIAiditem_` and ends with `.json`. |
| Archive.LatestVersion | pinger_scheduled.py:60-61 | The first name after a descending sort is the lexicographically greatest candidate. There is one iff any candidate exists. |
| Archive.BaselineOf | pinger_scheduled.py:53-84 | The baseline is "no versions" iff no listed name is an item version. Otherwise take the greatest version name. The baseline is "unreadable" iff that file is missing or not valid JSON, the two errors the job catches. It is a read error iff opening or decoding the file fails in another way, such as no permission, a directory, or bytes that are not UTF-8. A readable file gives the parse of its `last_edited`. |
| Archive.ItemNameIsVersion | pinger_scheduled.py:54-91 | The name a save writes, `firstIAiditem_{stamp}.json`, passes the filter for existing versions. |
| Archive.NewNameIsNewest | pinger_scheduled.py:54-61 | A version name above every earlier version is the greatest version of the listing that includes it. |
| Archive.ShouldSave | pinger_scheduled.py:56-86 | The save decision as a case table. No earlier version, or a newest version that is missing or not valid JSON: save. A read error that escapes the handlers ends the run: no save. Both stamps parse: save iff the download is strictly later, so equal stamps are not saved. Only the download's stamp parses: save. Only the existing stamp parses: do not save. Neither parses: save. A save never follows a stamp that is not older. |
| Archive.ArchiveItemFile | pinger_scheduled.py:40-101 | A failed download writes nothing. With no earlier version a successful download is always written. An uncaught error reading the newest version ends the run without a write. A write holds the downloaded JSON under `firstIAiditem_{stamp}.json`, which itself counts as a version name. |
| Archive.ArchiveKitFile | pinger_scheduled.py:18-33 | Every successful kit download is written, under `first_aid_kit_{stamp}.json`. That name is never taken for an item version. |
| Archive.NewNameIsLatest | pinger_scheduled.py:60-61 | A version name greater than all earlier ones becomes the baseline of the next run. |
| Archive.RerunArchivesOnlyUnstamped | pinger_scheduled.py:54-91 | Suppose a run archived a download and every earlier archive was captured before it. A later run with the same download saves again iff that download has no parseable stamp. |
| Snapshots.Pad | pinger_scheduled.py:28 | A `strftime` field is exactly as wide as its width and all digits. |
| Snapshots.PadRoundTrip | pinger_scheduled.py:28 | Reading a zero-padded field gives back the number. |
| Snapshots.PadOrder | pinger_scheduled.py:28 | Among fields of one width, string order is numeric order. |
| Snapshots.StampTextRoundTrip | pinger_scheduled.py:28 | The 15-character `YYYYMMDD_HHMMSS` text of a valid stamp determines the stamp. |
| Snapshots.StampText | pinger_scheduled.py:90 | `%Y%m%d_%H%M%S` is 15 characters: eight digits of date, an underscore, six digits of time. |
| Snapshots.SnapshotName | pinger_scheduled.py:90-91 | An archive name is the prefix, then the 15-character stamp text, then `.json`, 20 characters longer than the prefix. |
| Snapshots.StampTextOrder | pinger_scheduled.py:28 | One stamp text is lexicographically smaller than another iff its capture time is earlier. |
| Snapshots.SnapshotNameOrder | pinger_scheduled.py:90-91 | For archive names that share a prefix, name order is capture-time order. This is what the descending name sort relies on. |
| Strings.Trim | static/app.js:84 | `trim` leaves no whitespace at either end. It removes only whitespace, as a contiguous slice of the input. |
| Strings.TrimEmptyIffBlank | static/app.js:84-85 | A code trims to the empty string iff it is all whitespace. |
| Sorting.Sort | static/edit_items.js:199-200 | Sorting returns a permutation of its input, of the same length. |
| Sorting.SortSorted | static/edit_items.js:199-213 | Under a total preorder, every element of the sorted result may precede every later one. |
| Sorting.ReversedTotalPreorder | pinger_scheduled.py:60 | Reversing a total preorder, as `sort(reverse=True)` does, gives a total preorder. |
| Strings.NotAfterIsTotalPreorder | pinger_scheduled.py:60 | "not lexicographically after" is a total preorder on strings, so the default string sort is well-defined. |
| KitStore.ReadData | main.py:25-30 | A missing or invalid data file reads as the empty map. Otherwise the stored map is returned. |
| KitStore.GetKitItems | main.py:37-40 | A known kit yields its stored list and an unknown kit yields `[]`. |
| KitStore.AddItem | main.py:42-47 | A known kit gets the item appended at the end of its list. An unknown kit is added last, holding just the item. Every other kit keeps its place and list. Duplicate ids are accepted. |
| KitStore.AddItemResponse | main.py:49 | The response is the item that was sent, which is now in the kit. |
| KitStore.AddThenGet | main.py:45-47 | Reading a kit after adding to it gives its old list with the item at the end. |
| KitStore.FirstWithId | main.py:58 | The generator finds the first item with the id, or none iff no item has it. |
| KitStore.RemoveFirstEqualAt | main.py:63 | `list.remove` of the first item with an id deletes exactly that position. |
| KitStore.RemoveItem | main.py:51-64 | An unknown kit gives 404 "Kit not found". A known kit without the id gives 404 "Item not found". These two are the only failures, so a known kit holding the id always succeeds. Then exactly the first item with that id is deleted, and the rest of that kit's order and all other kits are unchanged. |
| KitStore.RemoveFirstEqual | main.py:63 | `list.remove` of a present value shortens the list by one. |
| KitStore.RemoveFirstEqualCounts | main.py:63 | `list.remove` takes away one occurrence of the value: the multiset of items loses exactly that value once. |
| KitStore.RemoveDropsOneItem | main.py:57-64 | A successful removal lowers the total item count by one. |
| KitStore.AddThenRemoveRestores | main.py:42-64 | Adding an item with a fresh id to a known kit, then removing that id, restores the store. |
| KitStore.RemoveAfterDuplicateAddKeepsNewest | main.py:42-63 | After adding an item whose id is already in the kit, removing that id deletes the older item and keeps the one just added. |
| KitStore.AllItems | main.py:67-76 | The nested loops of `get_all_items` produce the reference listing: every item tagged with its kit, kits in key order, items in list order. |
| KitStore.FlattenLength | main.py:67-76 | The listing's length is the sum of the kits' list lengths. |
| KitStore.FlattenAt | main.py:71-75 | Item `j` of kit `i` sits right after all items of the earlier kits, tagged with kit `i`'s id. |
| EditItems.ReplaceWhitespace | static/edit_items.js:78 | Each whitespace character becomes a hyphen. Every other character stays. |
| EditItems.ReplaceOthers | static/edit_items.js:79 | Each character other than an ASCII letter, digit or hyphen becomes a hyphen. |
| EditItems.CollapseHyphens | static/edit_items.js:80 | Each run of hyphens becomes one hyphen in its place. This agrees with a left-to-right reference that drops every hyphen following a hyphen. No double hyphen remains. Letters and digits are kept. A string without runs is unchanged. |
| EditItems.TrimEdgeHyphens | static/edit_items.js:81 | Exactly one leading hyphen and one trailing hyphen are dropped, if present. The result is the slice between them, and it neither starts nor ends with a hyphen. A clean name is unchanged. Letters and digits are kept. |
| EditItems.SanitizeClassName | static/edit_items.js:76-82 | The class name holds only ASCII letters, digits and single hyphens, with no hyphen at either end. It is exactly the name's maximal runs of letters and digits, joined by single hyphens. It is empty iff the name has no letter or digit. |
| EditItems.SanitizeKeepsBlocks | static/edit_items.js:77-81 | No replace step splits, merges or drops a run of letters and digits. |
| EditItems.CleanNameIsJoinedBlocks | static/edit_items.js:76-82 | A clean class name is its own runs of letters and digits joined by single hyphens. |
| EditItems.CleanNameIsFixed | static/edit_items.js:76-82 | A name that is already clean is returned unchanged. |
| EditItems.SanitizeIdempotent | static/edit_items.js:76-82 | Sanitising twice is sanitising once. |
| EditItems.GroupByCategory | static/edit_items.js:114-121 | Groups have distinct keys, and every item's key (its category, or `Uncategorized` when falsy) has a group. Each group holds exactly the items with its key, in input order, and no group is empty. The group sizes add up to the number of items, so every item is in exactly one group. |
| EditItems.GroupKey | static/edit_items.js:115 | A non-empty category is the key. A missing or empty category, which is falsy, gives `Uncategorized`. So the key is never empty. |
| EditItems.AddToGroups | static/edit_items.js:116-120 | The key set grows by the item's key. A new key opens a group at the end holding just the item. With distinct keys, a known key gets the item appended to its group, and every other group is unchanged. |
| EditItems.AddToGroupsStep | static/edit_items.js:114-121 | One `reduce` step turns a grouping of a prefix into a grouping of the prefix plus the item, with one more item in total. |
| EditItems.CategoryMayPrecedeIsTotalPreorder | static/edit_items.js:123-129 | The category comparator is a consistent total preorder when the name comparison is a strict total order. |
| EditItems.SortCategories | static/edit_items.js:123-129 | The groups are a permutation of the input and keep distinct categories. Every group with an item whose `Expiring` is `Yes` precedes every group without one. Groups alike in that respect are in name order. |
| EditItems.CategoryFirst | static/edit_items.js:124-128 | A group with an expiring item goes first against one without, and never the other way round. Two groups alike in that respect are ordered by name. |
| EditItems.CategorySet | static/edit_items.js:51-56 | The set holds each non-empty category exactly once. |
| EditItems.SortedCategories | static/edit_items.js:51-68 | The sorted categories are in strictly increasing code-point order. They are exactly the non-empty categories, each once. |
| EditItems.CategoryDropdown | static/edit_items.js:50-73 | The first option is the empty-valued default. It is followed by one option per distinct non-empty category, value equal to text, in strictly increasing code-point order. No other option appears. |
| EditItems.ClickHeader | static/edit_items.js:186-191 | Clicking the current column flips its direction. Clicking another column selects it ascending. |
| EditItems.ClickTwiceRestores | static/edit_items.js:186-191 | Two clicks on the current column restore the configuration. |
| EditItems.NewColumnTwiceIsDescending | static/edit_items.js:186-191 | Two clicks on another column end in a descending sort on it. |
| EditItems.HeaderArrow | static/edit_items.js:104-107 | Only the sorted column shows an arrow. It is ▲ iff the sort is ascending and ▼ iff it is descending. |
| EditItems.SortItems | static/edit_items.js:199-200 | The item sort returns a permutation of the group's items. |
| EditItems.SortItemsOrdered | static/edit_items.js:199-213 | With a consistent comparator the items are ordered by the column, reversed for a descending sort. |
| KitPage.ItemStatus | static/app.js:205-221 | Exactly one status results. Expired iff the expiry day is before today. Expires Soon iff it falls from today up to the 30th day ahead; the bound keeps the current time of day. OK otherwise, and for an unparseable date. |
| KitPage.StatusClass | static/app.js:214-220 | The CSS class is `status-expired`, `status-soon` or `status-ok` iff the status is Expired, Expires Soon or OK respectively. |
| KitPage.StatusText | static/app.js:214-220 | The label is `Expired`, `Expires Soon` or `OK` iff the status is Expired, Expires Soon or OK respectively. |
| KitPage.StatusMonotoneInExpiry | static/app.js:211-219 | A later expiry never gives a more severe status. |
| KitPage.StatusMonotoneInTime | static/app.js:206-219 | As time passes an item's status never becomes less severe. |
| KitPage.Split | static/app.js:286 | `split('/')` gives at least one part, and joining the parts with `/` gives back the path. |
| KitPage.SplitPartsFree | static/app.js:286 | No part of a split path holds `/`. |
| KitPage.SplitJoin | static/app.js:286 | Splitting parts joined by `/` gives back the parts, when no part holds `/`. |
| KitPage.RouteOf | static/app.js:286-294 | A kit id read from a path is non-empty and holds no `/`. |
| KitPage.RouteOfKitPath | static/app.js:286-291 | `/kit/{id}`, alone or followed by more segments, opens kit `{id}` in kit management. |
| KitPage.RouteOfShape | static/app.js:286-291 | Every path that opens a kit is `/kit/{id}`, alone or followed by another segment. |
| KitPage.RouteOfKitPrefix | static/app.js:286-294 | Below `/kit/`, a non-empty first segment opens that kit. An empty one falls through to kit selection. |
| KitPage.KitWithoutIdIsSelection | static/app.js:286-294 | `/kit/` with no id, alone or followed by further segments, opens kit selection. |
| KitPage.RootIsSelection | static/app.js:286-294 | The root path opens kit selection. |
| KitPage.EnterKit | static/app.js:81-91 | A kit code that is blank after trimming is refused. Otherwise the page goes to `/kit/` followed by the trimmed code. |
| KitPage.EnterKitRoundTrip | static/app.js:84-90 | For a code whose trimmed form holds no `/`, the opened page reads back the same kit id. |
| KitPage.ShowView | static/app.js:42-79 | Exactly one view is shown. Management iff the name is `kit-management`, all items iff `all-items`, and selection for any other name. The add-item inputs, button and form container are enabled or shown iff the view is kit management. |
| KitPage.ShowViewShowsNamedView | static/app.js:42-79 | Showing a view by its name shows that view. |
| KitPage.InitialState | static/app.js:285-294 | The page opens a kit iff the path names one, and the opened kit is the id read from the path. Exactly one view is shown: kit management when a kit is open, kit selection otherwise. The add-item inputs and button are enabled iff a kit is open. |
| KitPage.Step | static/app.js:33-39 | A click on "View All Items" leads to the all-items view once the items load. "Back" shows kit selection. Either way exactly one view is shown. Neither changes the open kit, and neither enables the add-item inputs or button. |
| KitPage.FormNeedsKitAlways | static/app.js:33-39 | After page load and any view changes on the page, the add-item button is enabled only while a kit is open, and the open kit never changes. |
| KitPage.Number | static/app.js:141-145 | Row `i` shows number `i + 1`, the `i`-th sorted item and that item's status. |
| KitPage.RenderTable | static/app.js:113-152 | No items gives the notice and nothing else. Otherwise there is one row per item, as a permutation, in ascending expiry order, numbered 1..n, each showing its item's status. |
| KitPage.RowStatusesOrdered | static/app.js:139-142 | Once the rows are in ascending expiry order, their statuses run from most severe to least: expired, then expiring soon, then OK. |
| KitPage.RenderedStatusesOrdered | static/app.js:139-152 | Down a rendered table, expired rows come first, then rows expiring soon, then the rest. |
| KitPage.RenderKitItems | static/app.js:113-121 | An empty kit shows "This kit is empty.". Otherwise the kit's items are listed in ascending expiry order. |
| KitPage.RenderAllItems | static/app.js:240-248 | No items shows "No items found across all kits.". Otherwise all items are listed in ascending expiry order. |

## Left out

- HTTP on both sides is out of the model: requests, FastAPI routing, pydantic validation, file responses, the static mount, the server and browser `fetch`. Responses are `Download` values, and the server side is the pure store operations.
- Filesystem effects are out: listing, opening, JSON load and dump, writing the data file back, and creating the download directory. Listings and file contents are parameters.
- Clocks and date parsing are out: `datetime.now`, `strftime`, `fromisoformat`, and JavaScript `Date` parsing. They are a `Stamp`, an opaque parser and integer millisecond instants.
- Archive.ArchiveItemFile: requires that the two parsed stamps are both naive or both offset-aware. Comparing one of each raises an uncaught `TypeError` in the job.
- Archive.ItemDoc: JSON documents that are not objects are out of the model, because `.get` on them raises an uncaught `AttributeError`. A `last_edited` value that is not a string is also out.
- KitStore.ReadData: a data file is missing, not valid JSON, or an object of kit ids to lists of item objects with a string `id`. Valid JSON of another shape is out of the model: a top-level list, an item without `id`, or an item that is not an object. So is a file that is not valid UTF-8. `read_data` returns such data unchanged, or lets the decode error escape. The endpoints then raise uncaught errors, which the server reports as HTTP 500.
- Snapshots.Stamp: years are limited to 1000..9999, the range where `%Y` gives four digits and name order is time order.
- Strings.LexLess orders by code point. JavaScript's default sort compares UTF-16 code units, which differ only for characters above U+FFFF.
- EditItems.ReplaceOthers: strings are sequences of code points. The regular expression `/[^a-zA-Z0-9-]/g` has no `u` flag, so JavaScript replaces each UTF-16 code unit. A character above U+FFFF becomes two hyphens there and one in the model. The collapse step that follows merges them, so the sanitised class name is the same; only the intermediate string differs.
- EditItems.SortCategories: `localeCompare` is an abstract strict total order rather than the locale's collation.
- EditItems.SortItems: the `parseInt` difference, with its NaN results, and `localeCompare` are one abstract comparator. Only the permutation is stated unconditionally. Order is stated under a consistent comparator.
- Sorting.Sort: insertion sort stands for the engines' sorts. The contracts state the permutation and the order, not stability.
- EditItems.GroupByCategory: categories that name an inherited object member (such as `toString`) make the `reduce` throw. They are excluded by a precondition.
- EditItems.GroupByCategory: groups are kept in first-occurrence order. `Object.keys` lists integer-like keys first, but the category sort that follows decides the final order.
- The category row label `category.replace('*', '')` and the expand, collapse and delete handlers of the editing page are DOM-only and not modelled.
- KitPage.ItemStatus: instants are local-time milliseconds without daylight-saving shifts. The thirty-day bound is `now + 30 days` of exactly 86,400,000 ms, and the two `new Date()` calls are taken as the same instant.
- KitPage.RenderTable: expiry dates that do not parse (NaN in the sort comparator) are out. The status of such an item is covered by `ItemStatus`.
- KitPage.RouteOf: percent-encoding, query strings and fragments in the kit id are out. The round trip is stated for ids without `/`.
- KitPage.EnterKitRoundTrip: navigation is modelled as the literal href string. A browser's URL parser rewrites the path before `pathname` is read. It removes `.` and `..` segments, also when written `%2e`, turns `\` into `/` in http(s) URLs, and strips tabs and newlines. So codes such as `.`, `..` or `a\b` open another page than the lemma states.
- DOM construction, `innerHTML` templates, alerts, confirmations, page navigation, and the fetches that load items on page open are out of the model.
- The add-item and remove-item handlers of the kit page are out: input validation, the `id_{time}` id and the requests. They only call the server operations modelled in `KitStore`.

=== FILE: archive.dfy ===
/**
  The download job (pinger_scheduled.py). Each run archives the kit dataset
  unconditionally, and archives the item file only when it is worth keeping:
  the newest archived item file is picked by name, and the downloaded
  `last_edited` is compared with that file's `last_edited`.

  The HTTP request, the directory listing, the file reads and the clock are
  parameters: a `Download` value, a listing, a `read` function from file name
  to what `json.load` gives, and a capture `Stamp`. `datetime.fromisoformat`
  is the opaque partial parser `fromIso`.
 */
module Archive {
  import opened Wrappers
  import opened Strings
  import opened Sorting
  import opened Snapshots

  /** A parsed `datetime`. `tick` orders instants of the same kind (UTC time
      for offset-aware values, wall-clock time for naive ones); `aware` tells
      which kind it is. */
  datatype Instant = Instant(tick: int, aware: bool)

  /** Python orders two datetimes only when both are aware or both naive;
      otherwise `<=` raises `TypeError`. */
  predicate Comparable(a: Instant, b: Instant) {
    a.aware == b.aware
  }

  /** `parse_timestamp`: an absent or empty string gives `None`, and so does
      any string `fromisoformat` rejects (its `ValueError` is caught). */
  function ParseTimestamp(text: Option<string>, fromIso: string -> Option<Instant>): (r: Option<Instant>)
    ensures text.None? || text.value == "" ==> r.None?
    ensures r.Some? ==> text.Some? && fromIso(text.value) == r
    // a non-empty string is the parser's verdict on it
    ensures text.Some? && text.value != "" ==> r == fromIso(text.value)
  {
    match text
    case None => None
    case Some(s) => if s == "" then None else fromIso(s)
  }

  /** A JSON object holding the item catalogue: its `last_edited` field (absent
      when the key is missing) and the rest of its content. */
  datatype ItemDoc = ItemDoc(lastEdited: Option<string>, rest: string)

  /** A request whose transport, HTTP status or JSON decoding failed, or the decoded body. */
  datatype Download<T> = DownloadFailed | Downloaded(doc: T)

  /** Reading an archived item file. `Unreadable`: missing or not valid JSON,
      the two errors the job catches. `ReadError`: any other failure to open
      or decode it (no permission, a directory, bytes that are not UTF-8),
      which escapes every handler and ends the run. Otherwise its content. */
  datatype Existing = Unreadable | ReadError | Readable(doc: ItemDoc)

  /** A file the job writes: its name and the JSON it holds. */
  datatype Written<T> = Written(name: string, doc: T)

  predicate EndsWith(s: string, suffix: string) {
    |suffix| <= |s| && s[|s| - |suffix|..] == suffix
  }

  /** Names that count as earlier versions of the item file. */
  predicate IsItemVersionName(f: string) {
    ItemPrefix <= f && EndsWith(f, JsonSuffix)
  }

  /** The list comprehension that keeps the item-file versions of a directory listing, in listing order. */
  function ExistingVersions(listing: seq<string>): (r: seq<string>)
    ensures |r| <= |listing|
    ensures forall f :: f in r <==> f in listing && IsItemVersionName(f)
  {
    if |listing| == 0 then []
    else
      var head := if IsItemVersionName(listing[0]) then [listing[0]] else [];
      head + ExistingVersions(listing[1..])
  }

  /** The first name after sorting the versions in descending order: the
      lexicographically greatest one. */
  function LatestVersion(versions: seq<string>): (r: Option<string>)
    ensures r.None? <==> |versions| == 0
    ensures r.Some? ==> r.value in versions
    ensures r.Some? ==> forall f :: f in versions ==> !LexLess(r.value, f)
  {
    if |versions| == 0 then None
    else
      var sorted := Sort(versions, Reversed(NotAfter));
      NotAfterIsTotalPreorder();
      ReversedTotalPreorder(NotAfter);
      SortSorted(versions, Reversed(NotAfter));
      SortMembers(versions, Reversed(NotAfter));
      assert forall f :: f in versions ==> NotAfter(f, sorted[0]) by {
        forall f | f in versions
          ensures NotAfter(f, sorted[0])
        {
          assert f in sorted;
          var k :| 0 <= k < |sorted| && sorted[k] == f;
          if k > 0 {
            assert Reversed(NotAfter)(sorted[0], sorted[k]);
          } else {
            LexLessIrreflexive(f);
          }
        }
      }
      Some(sorted[0])
  }

  /** What the downloaded timestamp is compared with. */
  datatype Baseline =
    | NoVersions                              // no earlier version in the directory
    | BaselineUnreadable                      // newest version missing or not valid JSON
    | BaselineReadError                       // reading the newest version raised an uncaught error
    | BaselineStamp(existing: Option<Instant>) // newest version's parsed `last_edited`

  /** `f` is an item-file version no other version in the listing sorts after. */
  predicate NewestVersion(f: string, listing: seq<string>) {
    && f in listing && IsItemVersionName(f)
    && forall g :: g in listing && IsItemVersionName(g) ==> !LexLess(f, g)
  }

  /** The baseline the downloaded stamp is compared with: nothing without
      earlier versions, otherwise what reading the newest version gives. */
  function BaselineOf(listing: seq<string>, read: string -> Existing,
                      fromIso: string -> Option<Instant>): (r: Baseline)
    ensures r.NoVersions? <==> forall f :: f in listing ==> !IsItemVersionName(f)
    ensures forall f :: NewestVersion(f, listing) ==>
              && (r.BaselineUnreadable? <==> read(f).Unreadable?)
              && (r.BaselineReadError? <==> read(f).ReadError?)
              && (read(f).Readable? ==> r == BaselineStamp(ParseTimestamp(read(f).doc.lastEdited, fromIso)))
  {
    var versions := ExistingVersions(listing);
    assert |versions| > 0 ==> versions[0] in versions;
    forall f | NewestVersion(f, listing)
      ensures LatestVersion(versions) == Some(f)
    {
      var v := LatestVersion(versions).value;
      LexLessConnected(f, v);
    }
    match LatestVersion(ExistingVersions(listing))
    case None => NoVersions
    case Some(f) =>
      match read(f)
      case Unreadable => BaselineUnreadable
      case ReadError => BaselineReadError
      case Readable(doc) => BaselineStamp(ParseTimestamp(doc.lastEdited, fromIso))
  }

  /** The job does not crash comparing the two timestamps. */
  predicate OrderingDefined(downloaded: Option<Instant>, baseline: Baseline) {
    (baseline.BaselineStamp? && downloaded.Some? && baseline.existing.Some?) ==>
      Comparable(downloaded.value, baseline.existing.value)
  }

  /** The decision `should_save`. */
  function ShouldSave(downloaded: Option<Instant>, baseline: Baseline): (save: bool)
    requires OrderingDefined(downloaded, baseline)
    // no earlier versions, or the newest one cannot be read: save
    ensures baseline.NoVersions? || baseline.BaselineUnreadable? ==> save
    // an uncaught read error ends the run before anything is written
    ensures baseline.BaselineReadError? ==> !save
    // both timestamps parse: save exactly when the download is strictly newer
    ensures (baseline.BaselineStamp? && downloaded.Some? && baseline.existing.Some?) ==>
              (save <==> downloaded.value.tick > baseline.existing.value.tick)
    // only the download's parses: save; only the existing one's: do not; neither: save
    ensures baseline.BaselineStamp? && downloaded.Some? && baseline.existing.None? ==> save
    ensures baseline.BaselineStamp? && downloaded.None? && baseline.existing.Some? ==> !save
    ensures baseline.BaselineStamp? && downloaded.None? && baseline.existing.None? ==> save
    // the archive never regresses: a kept stamp is only ever followed by a strictly newer one
    ensures (save && baseline.BaselineStamp? && baseline.existing.Some?) ==>
              downloaded.Some? && downloaded.value.tick > baseline.existing.value.tick
  {
    match baseline
    case NoVersions => true
    case BaselineUnreadable => true
    case BaselineReadError => false
    case BaselineStamp(existing) =>
      if downloaded.Some? && existing.Some? then
        !(downloaded.value.tick <= existing.value.tick)
      else if downloaded.Some? && existing.None? then true
      else if downloaded.None? && existing.Some? then false
      else true
  }

  /** `download_and_save_first_aid_item_file`: the file written, if any. */
  function ArchiveItemFile(download: Download<ItemDoc>, listing: seq<string>,
                           read: string -> Existing, fromIso: string -> Option<Instant>,
                           now: Stamp): (r: Option<Written<ItemDoc>>)
    requires now.Valid()
    requires download.Downloaded? ==>
               OrderingDefined(ParseTimestamp(download.doc.lastEdited, fromIso),
                               BaselineOf(listing, read, fromIso))
    ensures r.Some? <==> download.Downloaded?
                         && ShouldSave(ParseTimestamp(download.doc.lastEdited, fromIso),
                                       BaselineOf(listing, read, fromIso))
    ensures download.Downloaded? && ExistingVersions(listing) == [] ==> r.Some?
    // a newest version that raises on reading leaves the run without a write
    ensures BaselineOf(listing, read, fromIso).BaselineReadError? ==> r.None?
    ensures r.Some? ==> r.value.name == SnapshotName(ItemPrefix, now)
                        && r.value.doc == download.doc
                        && IsItemVersionName(r.value.name)
  {
    match download
    case DownloadFailed => None
    case Downloaded(doc) =>
      var stamp := ParseTimestamp(doc.lastEdited, fromIso);
      if ShouldSave(stamp, BaselineOf(listing, read, fromIso)) then
        ItemNameIsVersion(now);
        Some(Written(SnapshotName(ItemPrefix, now), doc))
      else None
  }

  /** `download_and_save_first_aid_kit`: every successful download is archived. */
  function ArchiveKitFile<T>(download: Download<T>, now: Stamp): (r: Option<Written<T>>)
    requires now.Valid()
    ensures r.Some? <==> download.Downloaded?
    ensures r.Some? ==> r.value.name == SnapshotName(KitPrefix, now) && r.value.doc == download.doc
    ensures r.Some? ==> !IsItemVersionName(r.value.name)
  {
    match download
    case DownloadFailed => None
    case Downloaded(doc) =>
      var name := SnapshotName(KitPrefix, now);
      assert name[5] == KitPrefix[5] != ItemPrefix[5];
      Some(Written(name, doc))
  }

  /** Item-file archive names are what the version filter keeps. */
  lemma ItemNameIsVersion(st: Stamp)
    requires st.Valid()
    ensures IsItemVersionName(SnapshotName(ItemPrefix, st))
  {
    var name := SnapshotName(ItemPrefix, st);
    assert name[|name| - |JsonSuffix|..] == name[|ItemPrefix| + 15..];
  }

  /** `f` is the archive name of an item file captured strictly before `now`. */
  ghost predicate ArchivedBefore(f: string, now: Stamp) {
    exists st: Stamp :: st.Valid() && Before(st, now) && f == SnapshotName(ItemPrefix, st)
  }

  /** A name greater than every earlier version becomes the newest version. */
  lemma NewNameIsLatest(listing: seq<string>, name: string)
    requires IsItemVersionName(name)
    requires forall f :: f in ExistingVersions(listing) ==> LexLess(f, name)
    ensures LatestVersion(ExistingVersions(listing + [name])) == Some(name)
  {
    var vs := ExistingVersions(listing + [name]);
    assert name in listing + [name];
    var v := LatestVersion(vs).value;
    assert v in listing + [name] && !LexLess(v, name);
    assert v in listing ==> v in ExistingVersions(listing);
  }

  /** Running the job again with an unchanged download, after it archived that
      download, archives again exactly when the download has no usable
      `last_edited`: a stamped catalogue is stored once. */
  lemma RerunArchivesOnlyUnstamped(doc: ItemDoc, listing: seq<string>, read: string -> Existing,
                                   read': string -> Existing, fromIso: string -> Option<Instant>,
                                   now: Stamp, later: Stamp)
    requires now.Valid() && later.Valid()
    requires OrderingDefined(ParseTimestamp(doc.lastEdited, fromIso), BaselineOf(listing, read, fromIso))
    requires ArchiveItemFile(Downloaded(doc), listing, read, fromIso, now).Some?
    requires forall f :: f in ExistingVersions(listing) ==> ArchivedBefore(f, now)
    requires read'(SnapshotName(ItemPrefix, now)) == Readable(doc)
    ensures var listing' := listing + [SnapshotName(ItemPrefix, now)];
            OrderingDefined(ParseTimestamp(doc.lastEdited, fromIso), BaselineOf(listing', read', fromIso))
            && (ArchiveItemFile(Downloaded(doc), listing', read', fromIso, later).Some?
                <==> ParseTimestamp(doc.lastEdited, fromIso).None?)
  {
    var name := SnapshotName(ItemPrefix, now);
    EarlierNamesBelow(listing, now);
    NewNameIsNewest(listing, name);
    var p := ParseTimestamp(doc.lastEdited, fromIso);
    assert BaselineOf(listing + [name], read', fromIso) == BaselineStamp(p);
  }

  /** Versions archived before `now` sort below the name `now` gives. */
  lemma EarlierNamesBelow(listing: seq<string>, now: Stamp)
    requires now.Valid()
    requires forall f :: f in ExistingVersions(listing) ==> ArchivedBefore(f, now)
    ensures forall f :: f in ExistingVersions(listing) ==> LexLess(f, SnapshotName(ItemPrefix, now))
  {
    forall f | f in ExistingVersions(listing)
      ensures LexLess(f, SnapshotName(ItemPrefix, now))
    {
      var st: Stamp :| st.Valid() && Before(st, now) && f == SnapshotName(ItemPrefix, st);
      SnapshotNameOrder(ItemPrefix, st, now);
    }
  }

  /** A version name above all earlier ones is the newest version of the longer listing. */
  lemma NewNameIsNewest(listing: seq<string>, name: string)
    requires IsItemVersionName(name)
    requires forall f :: f in ExistingVersions(listing) ==> LexLess(f, name)
    ensures NewestVersion(name, listing + [name])
  {
    forall g | g in listing + [name] && IsItemVersionName(g)
      ensures !LexLess(name, g)
    {
      if g == name {
        LexLessIrreflexive(name);
      } else {
        assert g in ExistingVersions(listing);
        LexLessAsymmetric(g, name);
      }
    }
  }
}

=== FILE: edit_items.dfy ===
/**
  Display rules of the catalogue editing page (static/edit_items.js): the
  CSS class name derived from a category, grouping the items by category,
  the order of the category groups, the category dropdown, the sort-column
  toggle and the per-group item sort.
 */
module EditItems {
  import opened Wrappers
  import opened Strings
  import opened Sorting

  /** A catalogue entry: the `Item#`, `Item`, `category` and `Expiring`
      properties of the JSON object (`None` when the property is absent). */
  datatype CatalogItem = CatalogItem(itemNo: Option<string>, name: string,
                                     category: Option<string>, expiring: Option<string>)

  // ---------------------------------------------------------------------------
  // sanitizeClassName

  /** Characters a sanitised class name may hold. */
  predicate IsClassChar(c: char) {
    IsAsciiAlnum(c) || c == '-'
  }

  predicate NoDoubleHyphen(s: string) {
    forall i :: 0 <= i < |s| - 1 ==> !(s[i] == '-' && s[i + 1] == '-')
  }

  /** A name `sanitizeClassName` can return: letters, digits and single
      hyphens, no hyphen at either end. */
  predicate IsCleanClassName(s: string) {
    && (forall i :: 0 <= i < |s| ==> IsClassChar(s[i]))
    && NoDoubleHyphen(s)
    && (|s| > 0 ==> s[0] != '-' && s[|s| - 1] != '-')
  }

  /** The ASCII letters and digits of `s`, in order. */
  function Alnums(s: string): string {
    if |s| == 0 then ""
    else (if IsAsciiAlnum(s[0]) then [s[0]] else []) + Alnums(s[1..])
  }

  lemma AlnumsCons(c: char, s: string)
    ensures Alnums([c] + s) == (if IsAsciiAlnum(c) then [c] else []) + Alnums(s)
  {
    assert ([c] + s)[1..] == s;
  }

  /** `.replace(/\s/g, '-')` */
  function ReplaceWhitespace(s: string): (r: string)
    ensures |r| == |s|
    ensures forall i :: 0 <= i < |s| ==> r[i] == (if IsJsWhitespace(s[i]) then '-' else s[i])
    ensures Alnums(r) == Alnums(s)
  {
    if |s| == 0 then ""
    else
      var c := if IsJsWhitespace(s[0]) then '-' else s[0];
      AlnumsCons(c, ReplaceWhitespace(s[1..]));
      [c] + ReplaceWhitespace(s[1..])
  }

  /** `.replace(/[^a-zA-Z0-9-]/g, '-')` */
  function ReplaceOthers(s: string): (r: string)
    ensures |r| == |s|
    ensures forall i :: 0 <= i < |s| ==> r[i] == (if IsClassChar(s[i]) then s[i] else '-')
    ensures Alnums(r) == Alnums(s)
  {
    if |s| == 0 then ""
    else
      var c := if IsClassChar(s[0]) then s[0] else '-';
      AlnumsCons(c, ReplaceOthers(s[1..]));
      [c] + ReplaceOthers(s[1..])
  }

  /** Reference for collapsing: reads `s` left to right and drops every hyphen
      that follows a hyphen. `afterHyphen` says whether the character before
      `s` was a hyphen. */
  function Squeeze(s: string, afterHyphen: bool): string {
    if |s| == 0 then ""
    else if s[0] == '-' && afterHyphen then Squeeze(s[1..], true)
    else [s[0]] + Squeeze(s[1..], s[0] == '-')
  }

  /** `.replace(/-+/g, '-')`: each run of hyphens becomes one. */
  function CollapseHyphens(s: string): (r: string)
    // every run of hyphens becomes a single hyphen in its place
    ensures r == Squeeze(s, false)
    ensures |s| > 0 ==> |r| > 0 && r[0] == s[0]
    ensures |r| <= |s|
    ensures NoDoubleHyphen(r)
    ensures Alnums(r) == Alnums(s)
    ensures (forall i :: 0 <= i < |s| ==> IsClassChar(s[i])) ==> forall i :: 0 <= i < |r| ==> IsClassChar(r[i])
    ensures NoDoubleHyphen(s) ==> r == s
  {
    if |s| <= 1 then
      assert |s| == 1 ==> s[1..] == "";
      s
    else if s[0] == '-' && s[1] == '-' then
      AlnumsCons(s[0], s[1..]);
      assert s == [s[0]] + s[1..];
      assert Squeeze(s, false) == ['-'] + Squeeze(s[2..], true);
      assert s[1..][1..] == s[2..];
      CollapseHyphens(s[1..])
    else
      var rest := CollapseHyphens(s[1..]);
      AlnumsCons(s[0], rest);
      AlnumsCons(s[0], s[1..]);
      assert s == [s[0]] + s[1..];
      assert s[1..][1..] == s[2..];
      assert Squeeze(s[1..], s[0] == '-') == Squeeze(s[1..], false);
      [s[0]] + rest
  }

  /** `.replace(/^-|-$/g, '')`: drops one hyphen at the start and one at the end. */
  function TrimEdgeHyphens(s: string): (r: string)
    requires NoDoubleHyphen(s)
    // exactly one leading and one trailing hyphen go, and nothing else
    ensures var a := if |s| > 0 && s[0] == '-' then 1 else 0;
            var b := if |s| > a && s[|s| - 1] == '-' then 1 else 0;
            r == s[a..|s| - b]
    ensures |r| > 0 ==> r[0] != '-' && r[|r| - 1] != '-'
    ensures IsCleanClassName(s) ==> r == s
    ensures (forall i :: 0 <= i < |s| ==> IsClassChar(s[i])) ==> IsCleanClassName(r)
    ensures Alnums(r) == Alnums(s)
  {
    var t := if |s| > 0 && s[0] == '-' then s[1..] else s;
    assert |s| > 0 && s[0] == '-' ==> s == [s[0]] + t && Alnums(s) == Alnums(t) by {
      if |s| > 0 && s[0] == '-' {
        assert s == [s[0]] + t;
        AlnumsCons(s[0], t);
      }
    }
    var u := if |t| > 0 && t[|t| - 1] == '-' then t[..|t| - 1] else t;
    assert |t| > 0 && t[|t| - 1] == '-' ==> Alnums(t) == Alnums(u) by {
      if |t| > 0 && t[|t| - 1] == '-' {
        AlnumsDropLastHyphen(t);
      }
    }
    u
  }

  lemma {:induction false} AlnumsDropLastHyphen(t: string)
    requires |t| > 0 && t[|t| - 1] == '-'
    ensures Alnums(t[..|t| - 1]) == Alnums(t)
    decreases |t|
  {
    if |t| > 1 {
      var u := t[..|t| - 1];
      assert t == [t[0]] + t[1..];
      assert u == [t[0]] + u[1..];
      assert u[1..] == t[1..][..|t[1..]| - 1];
      AlnumsDropLastHyphen(t[1..]);
      AlnumsCons(t[0], t[1..]);
      AlnumsCons(t[0], u[1..]);
    }
  }

  // ---------------------------------------------------------------------------
  // Blocks of letters and digits: the reference for sanitising

  /** Length of the run of ASCII letters and digits that starts `s`. */
  function RunLength(s: string): (n: nat)
    ensures n <= |s|
    ensures forall i :: 0 <= i < n ==> IsAsciiAlnum(s[i])
    ensures n < |s| ==> !IsAsciiAlnum(s[n])
  {
    if |s| == 0 || !IsAsciiAlnum(s[0]) then 0 else 1 + RunLength(s[1..])
  }

  /** The maximal runs of ASCII letters and digits in `s`, in order. */
  function AlnumBlocks(s: string): (r: seq<string>)
    ensures |s| > 0 && IsAsciiAlnum(s[0]) ==> |r| > 0
    decreases |s|
  {
    if |s| == 0 then []
    else if !IsAsciiAlnum(s[0]) then AlnumBlocks(s[1..])
    else
      var n := RunLength(s);
      [s[..n]] + AlnumBlocks(s[n..])
  }

  /** Blocks of a string behind a letter or digit `c`: `c` joins the first
      block when the string starts with one, and forms its own otherwise. */
  lemma BlocksCons(c: char, x: string)
    requires IsAsciiAlnum(c)
    ensures var bx := AlnumBlocks(x);
            AlnumBlocks([c] + x) ==
              if |x| > 0 && IsAsciiAlnum(x[0]) then [[c] + bx[0]] + bx[1..] else [[c]] + bx
  {
    if |x| > 0 && IsAsciiAlnum(x[0]) {
      BlocksConsJoins(c, x);
    } else {
      BlocksConsAlone(c, x);
    }
  }

  lemma BlocksConsJoins(c: char, x: string)
    requires IsAsciiAlnum(c) && |x| > 0 && IsAsciiAlnum(x[0])
    ensures var bx := AlnumBlocks(x);
            AlnumBlocks([c] + x) == [[c] + bx[0]] + bx[1..]
  {
    var s := [c] + x;
    assert s[1..] == x;
    var n := RunLength(x);
    var m := RunLength(s);
    assert m == 1 + n;
    var head, tail := s[..m], s[m..];
    assert head == [c] + x[..n];
    assert tail == x[n..];
    assert AlnumBlocks(s) == [head] + AlnumBlocks(tail);
    assert AlnumBlocks(x) == [x[..n]] + AlnumBlocks(x[n..]);
  }

  lemma BlocksConsAlone(c: char, x: string)
    requires IsAsciiAlnum(c) && !(|x| > 0 && IsAsciiAlnum(x[0]))
    ensures AlnumBlocks([c] + x) == [[c]] + AlnumBlocks(x)
  {
    var s := [c] + x;
    assert s[1..] == x;
    assert RunLength(x) == 0;
    assert RunLength(s) == 1;
    assert s[..1] == [c];
    assert AlnumBlocks(s) == [s[..1]] + AlnumBlocks(s[1..]);
  }

  /** A character other than a letter or digit only separates blocks. */
  lemma BlocksSeparatorCons(c: char, x: string)
    requires !IsAsciiAlnum(c)
    ensures AlnumBlocks([c] + x) == AlnumBlocks(x)
  {
    assert ([c] + x)[1..] == x;
  }

  /** Strings with the same letters and digits in the same places, and
      separators elsewhere, have the same blocks. */
  lemma {:induction false} SameBlocks(a: string, b: string)
    requires |a| == |b|
    requires forall i :: 0 <= i < |a| && (IsAsciiAlnum(a[i]) || IsAsciiAlnum(b[i])) ==> a[i] == b[i]
    ensures AlnumBlocks(a) == AlnumBlocks(b)
    decreases |a|
  {
    if |a| > 0 {
      var a', b' := a[1..], b[1..];
      assert a == [a[0]] + a' && b == [b[0]] + b';
      forall i | 0 <= i < |a'| && (IsAsciiAlnum(a'[i]) || IsAsciiAlnum(b'[i]))
        ensures a'[i] == b'[i]
      {
        assert a'[i] == a[i + 1] && b'[i] == b[i + 1];
      }
      SameBlocks(a', b');
      if IsAsciiAlnum(a[0]) {
        BlocksCons(a[0], a');
        BlocksCons(b[0], b');
      } else {
        BlocksSeparatorCons(a[0], a');
        BlocksSeparatorCons(b[0], b');
      }
    }
  }

  /** Collapsing hyphen runs keeps the blocks. */
  lemma {:induction false} CollapseKeepsBlocks(s: string)
    ensures AlnumBlocks(CollapseHyphens(s)) == AlnumBlocks(s)
    decreases |s|
  {
    if |s| > 1 {
      var t := s[1..];
      assert s == [s[0]] + t;
      CollapseKeepsBlocks(t);
      if s[0] == '-' && s[1] == '-' {
        BlocksSeparatorCons(s[0], t);
      } else if IsAsciiAlnum(s[0]) {
        BlocksCons(s[0], t);
        BlocksCons(s[0], CollapseHyphens(t));
      } else {
        BlocksSeparatorCons(s[0], t);
        BlocksSeparatorCons(s[0], CollapseHyphens(t));
      }
    }
  }

  /** Dropping a trailing separator keeps the blocks. */
  lemma {:induction false} BlocksDropLastSeparator(t: string)
    requires |t| > 0 && !IsAsciiAlnum(t[|t| - 1])
    ensures AlnumBlocks(t[..|t| - 1]) == AlnumBlocks(t)
    decreases |t|
  {
    var u := t[..|t| - 1];
    if |t| == 1 {
      BlocksSeparatorCons(t[0], "");
      assert t == [t[0]] + "";
    } else {
      var t', u' := t[1..], u[1..];
      assert t == [t[0]] + t' && u == [t[0]] + u';
      assert u' == t'[..|t'| - 1];
      BlocksDropLastSeparator(t');
      if IsAsciiAlnum(t[0]) {
        BlocksCons(t[0], t');
        BlocksCons(t[0], u');
        assert |u'| > 0 ==> u'[0] == t'[0];
      } else {
        BlocksSeparatorCons(t[0], t');
        BlocksSeparatorCons(t[0], u');
      }
    }
  }

  /** Trimming edge hyphens keeps the blocks. */
  lemma TrimKeepsBlocks(s: string)
    requires NoDoubleHyphen(s)
    ensures AlnumBlocks(TrimEdgeHyphens(s)) == AlnumBlocks(s)
  {
    var a := if |s| > 0 && s[0] == '-' then 1 else 0;
    var b := if |s| > a && s[|s| - 1] == '-' then 1 else 0;
    var t := s[a..];
    assert TrimEdgeHyphens(s) == t[..|t| - b];
    if a == 1 {
      assert s == [s[0]] + t;
      BlocksSeparatorCons(s[0], t);
    }
    if b == 1 {
      BlocksDropLastSeparator(t);
    } else {
      assert t[..|t|] == t;
    }
  }

  lemma JoinConsFirst(c: char, p: string, rest: seq<string>, sep: char)
    ensures Join([[c] + p] + rest, sep) == [c] + Join([p] + rest, sep)
  {
    var ps, qs := [[c] + p] + rest, [p] + rest;
    assert ps[1..] == rest && qs[1..] == rest;
  }

  /** A suffix of a clean name that starts past a letter or digit is clean. */
  lemma CleanSuffix(s: string, k: nat)
    requires IsCleanClassName(s)
    requires 0 < k < |s| && s[k] != '-'
    ensures IsCleanClassName(s[k..])
  {
    var y := s[k..];
    assert forall i :: 0 <= i < |y| ==> y[i] == s[i + k];
  }

  /** A single character in front of a non-empty list of blocks is joined by a separator. */
  lemma JoinSingleCons(c: char, blocks: seq<string>, sep: char)
    requires |blocks| > 0
    ensures Join([[c]] + blocks, sep) == [c] + [sep] + Join(blocks, sep)
  {
    var bs := [[c]] + blocks;
    assert bs[1..] == blocks;
  }

  /** A letter or digit in front of a joined clean name extends its first block. */
  lemma JoinedAfterAlnum(s: string)
    requires |s| >= 2 && IsAsciiAlnum(s[0]) && IsAsciiAlnum(s[1])
    requires s[1..] == Join(AlnumBlocks(s[1..]), '-')
    ensures s == Join(AlnumBlocks(s), '-')
  {
    var x := s[1..];
    assert s == [s[0]] + x;
    BlocksCons(s[0], x);
    var bx := AlnumBlocks(x);
    assert bx == [bx[0]] + bx[1..];
    JoinConsFirst(s[0], bx[0], bx[1..], '-');
  }

  /** A letter or digit and a hyphen in front of a joined clean name form a block of their own. */
  lemma JoinedAfterHyphen(s: string)
    requires |s| >= 3 && IsAsciiAlnum(s[0]) && s[1] == '-' && IsAsciiAlnum(s[2])
    requires s[2..] == Join(AlnumBlocks(s[2..]), '-')
    ensures s == Join(AlnumBlocks(s), '-')
  {
    var x := s[1..];
    var y := s[2..];
    assert s == [s[0]] + x;
    assert x == [x[0]] + y;
    BlocksCons(s[0], x);
    BlocksSeparatorCons(x[0], y);
    assert |AlnumBlocks(y)| > 0;
    JoinSingleCons(s[0], AlnumBlocks(y), '-');
  }

  /** A clean name is its blocks joined by single hyphens. */
  lemma {:induction false} CleanNameIsJoinedBlocks(s: string)
    requires IsCleanClassName(s)
    ensures s == Join(AlnumBlocks(s), '-')
    decreases |s|
  {
    if |s| == 1 {
      assert s == [s[0]] + [];
      BlocksCons(s[0], []);
    } else if |s| > 1 {
      if IsAsciiAlnum(s[1]) {
        CleanSuffix(s, 1);
        CleanNameIsJoinedBlocks(s[1..]);
        JoinedAfterAlnum(s);
      } else {
        // a hyphen is followed by a letter or digit, and the name goes on
        assert s[1] == '-' && |s| >= 3 && s[2] != '-';
        CleanSuffix(s, 2);
        CleanNameIsJoinedBlocks(s[2..]);
        JoinedAfterHyphen(s);
      }
    }
  }

  /** `sanitizeClassName`: the category as a CSS class suffix. */
  function SanitizeClassName(name: string): (r: string)
    ensures IsCleanClassName(r)
    // the letters and digits of the name survive, in order; everything else is dropped or becomes a single hyphen
    ensures Alnums(r) == Alnums(name)
    ensures r == "" <==> Alnums(name) == ""
    // the runs of letters and digits of the name, joined by single hyphens
    ensures r == Join(AlnumBlocks(name), '-')
  {
    var a := ReplaceWhitespace(name);
    var b := ReplaceOthers(a);
    var c := CollapseHyphens(b);
    assert forall i :: 0 <= i < |b| ==> IsClassChar(b[i]);
    assert forall i :: 0 <= i < |c| ==> IsClassChar(c[i]);
    var r := TrimEdgeHyphens(c);
    assert IsCleanClassName(r);
    CleanNameAlnums(r);
    SanitizeKeepsBlocks(name);
    CleanNameIsJoinedBlocks(r);
    r
  }

  /** Every stage of sanitising keeps the blocks of letters and digits. */
  lemma SanitizeKeepsBlocks(name: string)
    ensures var c := CollapseHyphens(ReplaceOthers(ReplaceWhitespace(name)));
            AlnumBlocks(TrimEdgeHyphens(c)) == AlnumBlocks(name)
  {
    var a := ReplaceWhitespace(name);
    var b := ReplaceOthers(a);
    var c := CollapseHyphens(b);
    assert forall i :: 0 <= i < |name| && IsJsWhitespace(name[i]) ==> !IsAsciiAlnum(name[i]);
    SameBlocks(name, a);
    SameBlocks(a, b);
    CollapseKeepsBlocks(b);
    TrimKeepsBlocks(c);
  }

  /** A non-empty clean name starts with a letter or digit. */
  lemma CleanNameAlnums(r: string)
    requires IsCleanClassName(r)
    ensures |r| > 0 ==> Alnums(r) != ""
  {
    if |r| > 0 {
      assert IsAsciiAlnum(r[0]);
      assert r == [r[0]] + r[1..];
      AlnumsCons(r[0], r[1..]);
    }
  }

  /** A clean name is left as it is. */
  lemma CleanNameIsFixed(s: string)
    requires IsCleanClassName(s)
    ensures SanitizeClassName(s) == s
  {
    var a := ReplaceWhitespace(s);
    assert forall i :: 0 <= i < |s| ==> a[i] == s[i] by {
      forall i | 0 <= i < |s|
        ensures a[i] == s[i]
      {
        assert IsClassChar(s[i]);
      }
    }
    assert a == s;
    var b := ReplaceOthers(a);
    assert forall i :: 0 <= i < |s| ==> b[i] == s[i];
    assert b == s;
    assert CollapseHyphens(b) == s;
  }

  /** Sanitising twice is sanitising once. */
  lemma SanitizeIdempotent(name: string)
    ensures SanitizeClassName(SanitizeClassName(name)) == SanitizeClassName(name)
  {
    CleanNameIsFixed(SanitizeClassName(name));
  }

  // ---------------------------------------------------------------------------
  // Grouping by category

  const Uncategorized: string := "Uncategorized"

  /** `item.category || 'Uncategorized'`: a missing or empty category is falsy. */
  function GroupKey(it: CatalogItem): (r: string)
    // every item has a non-empty key
    ensures r != ""
    ensures it.category.Some? && it.category.value != "" ==> r == it.category.value
    ensures it.category.None? || it.category.value == "" ==> r == Uncategorized
  {
    if it.category.None? || it.category.value == "" then Uncategorized else it.category.value
  }

  /** Property names every plain object inherits. For these `acc[category]`
      finds the inherited member and the following `push` throws. */
  const InheritedNames: set<string> := {
    "constructor", "hasOwnProperty", "isPrototypeOf", "propertyIsEnumerable",
    "toLocaleString", "toString", "valueOf", "__proto__",
    "__defineGetter__", "__defineSetter__", "__lookupGetter__", "__lookupSetter__"
  }

  datatype Group = Group(category: string, items: seq<CatalogItem>)

  predicate DistinctCategories(gs: seq<Group>) {
    forall i, j :: 0 <= i < j < |gs| ==> gs[i].category != gs[j].category
  }

  function Categories(gs: seq<Group>): set<string> {
    set g | g in gs :: g.category
  }

  /** Reference definition: the items whose group key is `key`, in input order. */
  function ItemsWithKey(items: seq<CatalogItem>, key: string): seq<CatalogItem> {
    if |items| == 0 then []
    else
      var last := items[|items| - 1];
      ItemsWithKey(items[..|items| - 1], key) + (if GroupKey(last) == key then [last] else [])
  }

  function GroupIndex(gs: seq<Group>, key: string): (r: Option<nat>)
    ensures r.Some? ==> r.value < |gs| && gs[r.value].category == key
    ensures r.None? ==> key !in Categories(gs)
  {
    if |gs| == 0 then None
    else if gs[0].category == key then Some(0)
    else
      match GroupIndex(gs[1..], key)
      case None =>
        assert forall g :: g in gs ==> g == gs[0] || g in gs[1..];
        None
      case Some(i) => Some(i + 1)
  }

  /** A key no item has selects nothing. */
  lemma {:induction false} NoItemsWithAbsentKey(items: seq<CatalogItem>, key: string)
    requires forall i :: 0 <= i < |items| ==> GroupKey(items[i]) != key
    ensures ItemsWithKey(items, key) == []
    decreases |items|
  {
    if |items| > 0 {
      NoItemsWithAbsentKey(items[..|items| - 1], key);
    }
  }

  /** `gs` is the exact grouping of `items`: distinct keys, every item's key
      present, each group holding exactly the items with its key, in order. */
  predicate IsGroupingOf(gs: seq<Group>, items: seq<CatalogItem>) {
    && DistinctCategories(gs)
    && (forall i :: 0 <= i < |items| ==> GroupKey(items[i]) in Categories(gs))
    && (forall m :: 0 <= m < |gs| ==> gs[m].items == ItemsWithKey(items, gs[m].category))
    && (forall m :: 0 <= m < |gs| ==> |gs[m].items| > 0)
  }

  /** A non-empty list is its prefix followed by its last item. */
  lemma LastSplit(items: seq<CatalogItem>)
    requires |items| > 0
    ensures items[..|items| - 1] + [items[|items| - 1]] == items
  {
  }

  lemma ItemsWithKeySnoc(prefix: seq<CatalogItem>, it: CatalogItem, c: string)
    ensures ItemsWithKey(prefix + [it], c) == ItemsWithKey(prefix, c) + (if GroupKey(it) == c then [it] else [])
  {
    assert (prefix + [it])[..|prefix|] == prefix;
  }

  /** Replacing a group by one with the same category keeps the categories. */
  lemma UpdateKeepsCategories(gs: seq<Group>, j: nat, g: Group)
    requires j < |gs| && g.category == gs[j].category
    ensures Categories(gs[j := g]) == Categories(gs)
    ensures DistinctCategories(gs) ==> DistinctCategories(gs[j := g])
  {
    var r := gs[j := g];
    assert forall m :: 0 <= m < |r| ==> r[m].category == gs[m].category;
    forall c | c in Categories(gs)
      ensures c in Categories(r)
    {
      var h :| h in gs && h.category == c;
      var m :| 0 <= m < |gs| && gs[m] == h;
      assert r[m] in r;
    }
    forall c | c in Categories(r)
      ensures c in Categories(gs)
    {
      var h :| h in r && h.category == c;
      var m :| 0 <= m < |r| && r[m] == h;
      assert gs[m] in gs;
    }
  }

  /** A `reduce` step for an item whose key already has a group. */
  lemma AddToExistingGroup(gs: seq<Group>, prefix: seq<CatalogItem>, it: CatalogItem, j: nat)
    requires IsGroupingOf(gs, prefix)
    requires j < |gs| && gs[j].category == GroupKey(it)
    ensures IsGroupingOf(gs[j := Group(GroupKey(it), gs[j].items + [it])], prefix + [it])
  {
    var items := prefix + [it];
    var r := gs[j := Group(GroupKey(it), gs[j].items + [it])];
    UpdateKeepsCategories(gs, j, r[j]);
    forall m | 0 <= m < |r|
      ensures r[m].items == ItemsWithKey(items, r[m].category)
    {
      ItemsWithKeySnoc(prefix, it, r[m].category);
    }
    forall i | 0 <= i < |items|
      ensures GroupKey(items[i]) in Categories(r)
    {
      if i < |prefix| {
        assert items[i] == prefix[i];
      } else {
        assert r[j] in r;
      }
    }
  }

  /** A `reduce` step for an item whose key has no group yet. */
  lemma AddNewGroup(gs: seq<Group>, prefix: seq<CatalogItem>, it: CatalogItem)
    requires IsGroupingOf(gs, prefix)
    requires GroupKey(it) !in Categories(gs)
    ensures IsGroupingOf(gs + [Group(GroupKey(it), [it])], prefix + [it])
  {
    var key := GroupKey(it);
    var items := prefix + [it];
    var r := gs + [Group(key, [it])];
    assert forall m :: 0 <= m < |gs| ==> gs[m] in gs;
    assert Categories(r) == Categories(gs) + {key} by {
      assert forall g :: g in r <==> g in gs || g == Group(key, [it]);
    }
    forall i | 0 <= i < |prefix|
      ensures GroupKey(prefix[i]) != key
    {
      assert GroupKey(prefix[i]) in Categories(gs);
    }
    NoItemsWithAbsentKey(prefix, key);
    forall m | 0 <= m < |r|
      ensures r[m].items == ItemsWithKey(items, r[m].category)
    {
      ItemsWithKeySnoc(prefix, it, r[m].category);
    }
    forall i | 0 <= i < |items|
      ensures GroupKey(items[i]) in Categories(r)
    {
      if i < |prefix| {
        assert items[i] == prefix[i];
      }
    }
  }

  /** The `reduce` that builds `grouped`. Groups appear in order of first occurrence. */
  function GroupByCategory(items: seq<CatalogItem>): (r: seq<Group>)
    requires forall i :: 0 <= i < |items| ==> GroupKey(items[i]) !in InheritedNames
    ensures DistinctCategories(r)
    // every item's key has a group
    ensures forall i :: 0 <= i < |items| ==> GroupKey(items[i]) in Categories(r)
    // a group holds exactly the items with its key, in input order
    ensures forall m :: 0 <= m < |r| ==> r[m].items == ItemsWithKey(items, r[m].category)
    ensures forall m :: 0 <= m < |r| ==> |r[m].items| > 0
    // so every item lands in exactly one group
    ensures GroupedCount(r) == |items|
    decreases |items|
  {
    if |items| == 0 then []
    else
      var n := |items| - 1;
      assert forall i :: 0 <= i < n ==> items[..n][i] == items[i];
      var gs := GroupByCategory(items[..n]);
      assert IsGroupingOf(gs, items[..n]);
      AddToGroupsStep(gs, items[..n], items[n]);
      LastSplit(items);
      AddToGroups(gs, items[n])
  }

  /** The `reduce` callback: append the item to its key's group, opening the
      group when the key is new. */
  function AddToGroups(gs: seq<Group>, it: CatalogItem): (r: seq<Group>)
    ensures Categories(r) == Categories(gs) + {GroupKey(it)}
    // a new key opens a group at the end, holding just the item
    ensures GroupKey(it) !in Categories(gs) ==> r == gs + [Group(GroupKey(it), [it])]
    // a known key gets the item appended to its group; every other group stays
    ensures DistinctCategories(gs) && GroupKey(it) in Categories(gs) ==>
              |r| == |gs| &&
              forall m :: 0 <= m < |gs| ==>
                r[m] == (if gs[m].category == GroupKey(it) then Group(GroupKey(it), gs[m].items + [it]) else gs[m])
  {
    var key := GroupKey(it);
    match GroupIndex(gs, key)
    case None =>
      var g := Group(key, [it]);
      assert forall h :: h in gs + [g] <==> h in gs || h == g;
      gs + [g]
    case Some(j) =>
      var g := Group(key, gs[j].items + [it]);
      UpdateKeepsCategories(gs, j, g);
      gs[j := g]
  }

  /** One callback step extends a grouping of the items so far by one item. */
  lemma AddToGroupsStep(gs: seq<Group>, prefix: seq<CatalogItem>, it: CatalogItem)
    requires IsGroupingOf(gs, prefix)
    ensures IsGroupingOf(AddToGroups(gs, it), prefix + [it])
    ensures GroupedCount(AddToGroups(gs, it)) == GroupedCount(gs) + 1
  {
    var key := GroupKey(it);
    match GroupIndex(gs, key)
    case None =>
      AddNewGroup(gs, prefix, it);
      GroupedCountSnoc(gs, Group(key, [it]));
    case Some(j) =>
      AddToExistingGroup(gs, prefix, it, j);
      GroupedCountUpdate(gs, j, Group(key, gs[j].items + [it]));
  }

  /** Number of items over all groups. */
  function GroupedCount(gs: seq<Group>): nat {
    if |gs| == 0 then 0
    else GroupedCount(gs[..|gs| - 1]) + |gs[|gs| - 1].items|
  }

  lemma GroupedCountSnoc(gs: seq<Group>, g: Group)
    ensures GroupedCount(gs + [g]) == GroupedCount(gs) + |g.items|
  {
    assert (gs + [g])[..|gs|] == gs;
  }

  lemma {:induction false} GroupedCountUpdate(gs: seq<Group>, j: nat, g: Group)
    requires j < |gs|
    ensures GroupedCount(gs[j := g]) == GroupedCount(gs) - |gs[j].items| + |g.items|
    decreases |gs|
  {
    var n := |gs| - 1;
    var t := gs[j := g];
    if j < n {
      assert t[..n] == gs[..n][j := g];
      GroupedCountUpdate(gs[..n], j, g);
    } else {
      assert t[..n] == gs[..n];
    }
  }

  // ---------------------------------------------------------------------------
  // Category order

  /** `grouped[c].some(item => item.Expiring === 'Yes')` */
  predicate HasExpiring(g: Group) {
    exists i :: 0 <= i < |g.items| && g.items[i].expiring == Some("Yes")
  }

  /** `localeCompare(a, b) < 0`, taken as an irreflexive, transitive and
      total order on distinct names. */
  ghost predicate StrictTotalOrder(less: (string, string) -> bool) {
    && (forall a :: !less(a, a))
    && (forall a, b, c :: less(a, b) && less(b, c) ==> less(a, c))
    && (forall a, b :: a == b || less(a, b) || less(b, a))
  }

  /** The comparator of `sortedCategories` returns -1 for `a` before `b`:
      expiring groups first, then by name. */
  function CategoryFirst(less: (string, string) -> bool, a: Group, b: Group): (r: bool)
    // a group with an expiring item goes before one without
    ensures HasExpiring(a) && !HasExpiring(b) ==> r
    ensures !HasExpiring(a) && HasExpiring(b) ==> !r
    // otherwise the names decide
    ensures HasExpiring(a) == HasExpiring(b) ==> (r <==> less(a.category, b.category))
  {
    || (HasExpiring(a) && !HasExpiring(b))
    || (HasExpiring(a) == HasExpiring(b) && less(a.category, b.category))
  }

  /** `a` may stand before `b`: `b` does not have to come first. */
  predicate CategoryMayPrecede(less: (string, string) -> bool, a: Group, b: Group) {
    !CategoryFirst(less, b, a)
  }

  /** In a strict total order, anything below `z` is below `y` or `y` is below `z`. */
  lemma NegativelyTransitive(less: (string, string) -> bool, x: string, y: string, z: string)
    requires StrictTotalOrder(less)
    requires less(x, z)
    ensures less(x, y) || less(y, z)
  {
    if !less(x, y) && x != y {
      assert less(y, x);
    }
  }

  lemma CategoryMayPrecedeIsTotalPreorder(less: (string, string) -> bool)
    requires StrictTotalOrder(less)
    ensures TotalPreorder((a, b) => CategoryMayPrecede(less, a, b))
  {
    var le := (a, b) => CategoryMayPrecede(less, a, b);
    forall a: Group, b: Group
      ensures le(a, b) || le(b, a)
    {
      assert less(a.category, b.category) ==> !less(b.category, a.category);
    }
    forall a: Group, b: Group, c: Group | le(a, b) && le(b, c)
      ensures le(a, c)
    {
      if less(c.category, a.category) {
        NegativelyTransitive(less, c.category, b.category, a.category);
      }
    }
  }

  /** `Object.keys(grouped).sort(...)`, carrying each group along. */
  function SortCategories(groups: seq<Group>, less: (string, string) -> bool): (r: seq<Group>)
    requires StrictTotalOrder(less)
    requires DistinctCategories(groups)
    ensures multiset(r) == multiset(groups)
    ensures DistinctCategories(r)
    // every group with an expiring item precedes every group without one
    ensures forall i, j :: 0 <= i < j < |r| && HasExpiring(r[j]) ==> HasExpiring(r[i])
    // groups alike in that respect are in name order
    ensures forall i, j :: 0 <= i < j < |r| && HasExpiring(r[i]) == HasExpiring(r[j]) ==>
              less(r[i].category, r[j].category)
  {
    var le := (a, b) => CategoryMayPrecede(less, a, b);
    var r := Sort(groups, le);
    CategoryMayPrecedeIsTotalPreorder(less);
    SortSorted(groups, le);
    assert Distinct(groups);
    PermutationKeepsDistinct(groups, r);
    assert DistinctCategories(r) by {
      forall i, j | 0 <= i < j < |r|
        ensures r[i].category != r[j].category
      {
        assert r[i] in multiset(groups) && r[j] in multiset(groups);
        var p :| 0 <= p < |groups| && groups[p] == r[i];
        var q :| 0 <= q < |groups| && groups[q] == r[j];
        assert p != q;
      }
    }
    assert forall i, j :: 0 <= i < j < |r| ==> le(r[i], r[j]);
    r
  }

  // ---------------------------------------------------------------------------
  // Category dropdown

  datatype SelectOption = SelectOption(value: string, text: string)

  const DefaultOption := SelectOption("", "Select a category")

  /** Categories that are truthy, i.e. present and non-empty. */
  function NamedCategories(items: seq<CatalogItem>): set<string> {
    set i | 0 <= i < |items| && items[i].category.Some? && items[i].category.value != ""
          :: items[i].category.value
  }

  /** The `Set` of categories, in insertion order. */
  function CategorySet(items: seq<CatalogItem>): (r: seq<string>)
    ensures Distinct(r)
    ensures forall c :: c in r <==> c in NamedCategories(items)
    decreases |items|
  {
    if |items| == 0 then []
    else
      var n := |items| - 1;
      var prev := CategorySet(items[..n]);
      assert forall c :: c in NamedCategories(items) <==>
               c in NamedCategories(items[..n])
               || (items[n].category.Some? && items[n].category.value != "" && c == items[n].category.value) by {
        forall c
          ensures c in NamedCategories(items) <==>
                  c in NamedCategories(items[..n])
                  || (items[n].category.Some? && items[n].category.value != "" && c == items[n].category.value)
        {
          if c in NamedCategories(items) {
            var i :| 0 <= i < |items| && items[i].category.Some? && items[i].category.value != ""
                     && items[i].category.value == c;
            if i < n {
              assert items[..n][i] == items[i];
            }
          }
          if c in NamedCategories(items[..n]) {
            var i :| 0 <= i < n && items[..n][i].category.Some? && items[..n][i].category.value != ""
                     && items[..n][i].category.value == c;
            assert items[i] == items[..n][i];
          }
        }
      }
      var cat := items[n].category;
      if cat.Some? && cat.value != "" && cat.value !in prev then prev + [cat.value] else prev
  }

  function ToOptions(cats: seq<string>): (r: seq<SelectOption>)
    ensures |r| == |cats|
    ensures forall i :: 0 <= i < |cats| ==> r[i] == SelectOption(cats[i], cats[i])
  {
    if |cats| == 0 then [] else [SelectOption(cats[0], cats[0])] + ToOptions(cats[1..])
  }

  /** `Array.from(categories).sort()`: the distinct non-empty categories in
      strictly increasing order. */
  function SortedCategories(items: seq<CatalogItem>): (r: seq<string>)
    ensures forall i, j :: 0 <= i < j < |r| ==> LexLess(r[i], r[j])
    ensures forall c :: c in r <==> c in NamedCategories(items)
    ensures |r| == |NamedCategories(items)|
  {
    var cats := CategorySet(items);
    var sorted := Sort(cats, NotAfter);
    NotAfterIsTotalPreorder();
    SortSorted(cats, NotAfter);
    SortMembers(cats, NotAfter);
    PermutationKeepsDistinct(cats, sorted);
    DistinctCardinality(sorted, NamedCategories(items));
    StrictlySorted(sorted);
    sorted
  }

  /** Sorted without repeats means strictly increasing. */
  lemma StrictlySorted(s: seq<string>)
    requires SortedBy(s, NotAfter)
    requires Distinct(s)
    ensures forall i, j :: 0 <= i < j < |s| ==> LexLess(s[i], s[j])
  {
    forall i, j | 0 <= i < j < |s|
      ensures LexLess(s[i], s[j])
    {
      assert NotAfter(s[i], s[j]);
      LexLessConnected(s[i], s[j]);
    }
  }

  /** `populateCategoryDropdown`: the options of the category select element. */
  function CategoryDropdown(items: seq<CatalogItem>): (r: seq<SelectOption>)
    ensures |r| >= 1 && r[0] == DefaultOption
    ensures forall i :: 1 <= i < |r| ==> r[i].value == r[i].text
    // strictly increasing values: sorted, each listed once
    ensures forall i, j :: 1 <= i < j < |r| ==> LexLess(r[i].value, r[j].value)
    // exactly the non-empty categories of the items
    ensures |r| - 1 == |NamedCategories(items)|
    ensures forall i :: 1 <= i < |r| ==> r[i].value in NamedCategories(items)
    ensures forall c :: c in NamedCategories(items) ==> exists i :: 1 <= i < |r| && r[i].value == c
  {
    var sorted := SortedCategories(items);
    var options := ToOptions(sorted);
    var r := [DefaultOption] + options;
    forall i | 1 <= i < |r|
      ensures r[i] == SelectOption(sorted[i - 1], sorted[i - 1])
    {
      assert r[i] == options[i - 1];
    }
    forall i, j | 1 <= i < j < |r|
      ensures LexLess(r[i].value, r[j].value)
    {
      assert r[i].value == sorted[i - 1] && r[j].value == sorted[j - 1];
    }
    forall i | 1 <= i < |r|
      ensures r[i].value in NamedCategories(items)
    {
      assert sorted[i - 1] in sorted;
    }
    forall c | c in NamedCategories(items)
      ensures r[1 + IndexOf(sorted, c)].value == c
    {
    }
    r
  }


  /** A repeat-free sequence has as many elements as the set of its members. */
  lemma {:induction false} DistinctCardinality(s: seq<string>, m: set<string>)
    requires Distinct(s)
    requires forall x :: x in s <==> x in m
    ensures |s| == |m|
    decreases |s|
  {
    if |s| == 0 {
      assert forall x :: x !in m;
    } else {
      var t := s[1..];
      assert Distinct(t) by {
        forall i, j | 0 <= i < j < |t|
          ensures t[i] != t[j]
        {
          assert t[i] == s[i + 1] && t[j] == s[j + 1];
        }
      }
      assert s[0] !in t by {
        forall k | 0 <= k < |t|
          ensures t[k] != s[0]
        {
          assert t[k] == s[k + 1];
        }
      }
      assert forall x :: x in s <==> x == s[0] || x in t by {
        assert s == [s[0]] + t;
      }
      DistinctCardinality(t, m - {s[0]});
    }
  }

  // ---------------------------------------------------------------------------
  // Column sorting

  /** The `data-sort` columns: `Item#`, `Item`, `category`, `Expiring`. */
  datatype SortKey = ItemNumber | ItemName | CategoryColumn | ExpiringColumn

  datatype SortOrder = Asc | Desc

  datatype SortConfig = SortConfig(key: SortKey, order: SortOrder)

  /** The configuration the page first renders with. */
  const InitialSort := SortConfig(ItemNumber, Asc)

  /** A click on a column header. */
  function ClickHeader(cfg: SortConfig, clicked: SortKey): (r: SortConfig)
    ensures r.key == clicked
    // the current column flips its direction
    ensures clicked == cfg.key ==> r.order != cfg.order
    // another column starts ascending
    ensures clicked != cfg.key ==> r.order == Asc
  {
    if cfg.key == clicked then
      SortConfig(clicked, if cfg.order == Asc then Desc else Asc)
    else
      SortConfig(clicked, Asc)
  }

  /** Two clicks on the current column give back the configuration. */
  lemma ClickTwiceRestores(cfg: SortConfig)
    ensures ClickHeader(ClickHeader(cfg, cfg.key), cfg.key) == cfg
  {
  }

  /** Two clicks on another column always end in a descending sort on it. */
  lemma NewColumnTwiceIsDescending(cfg: SortConfig, clicked: SortKey)
    requires clicked != cfg.key
    ensures ClickHeader(ClickHeader(cfg, clicked), clicked) == SortConfig(clicked, Desc)
  {
  }

  /** The arrow shown in a header: up for ascending, down for descending, on the sorted column only. */
  function HeaderArrow(cfg: SortConfig, column: SortKey): (r: string)
    ensures r != "" <==> column == cfg.key
    ensures r == "\U{25B2}" <==> column == cfg.key && cfg.order == Asc
    ensures r == "\U{25BC}" <==> column == cfg.key && cfg.order == Desc
  {
    if cfg.key != column then ""
    else
      match cfg.order
      case Asc => "\U{25B2}"
      case Desc => "\U{25BC}"
  }

  /** The comparator of `sortItems`, reversed for a descending sort. `compare`
      stands for the numeric difference of `parseInt` results or for
      `localeCompare` on the column. */
  function Directed(cfg: SortConfig, compare: (SortKey, CatalogItem, CatalogItem) -> int,
                    a: CatalogItem, b: CatalogItem): int
  {
    if cfg.order == Asc then compare(cfg.key, a, b) else compare(cfg.key, b, a)
  }

  /** `sortItems`: a sorted copy of a group's items. */
  function SortItems(items: seq<CatalogItem>, cfg: SortConfig,
                     compare: (SortKey, CatalogItem, CatalogItem) -> int): (r: seq<CatalogItem>)
    ensures multiset(r) == multiset(items)
  {
    Sort(items, (a, b) => Directed(cfg, compare, a, b) <= 0)
  }

  /** With a consistent comparator, every item is ranked no later than the
      items after it, in the configured direction. */
  lemma SortItemsOrdered(items: seq<CatalogItem>, cfg: SortConfig,
                         compare: (SortKey, CatalogItem, CatalogItem) -> int)
    requires TotalPreorder((a, b) => Directed(cfg, compare, a, b) <= 0)
    ensures var r := SortItems(items, cfg, compare);
            forall i, j :: 0 <= i < j < |r| ==>
              if cfg.order == Asc then compare(cfg.key, r[i], r[j]) <= 0
              else compare(cfg.key, r[j], r[i]) <= 0
  {
    SortSorted(items, (a, b) => Directed(cfg, compare, a, b) <= 0);
  }
}

=== FILE: kit_page.dfy ===
/**
  Rules of the kit page (static/app.js): the expiry status of an item, the
  route read from the page's path, the navigation `enterKit` performs, which
  view `showView` displays, and the numbered, date-ordered rows of the item
  tables.

  The clock and date parsing are parameters: instants are integers counting
  milliseconds of local time, and an expiry date that `new Date` cannot parse
  is `None`.
 */
module KitPage {
  import opened Wrappers
  import opened Strings
  import opened Sorting
  import KitStore

  // ---------------------------------------------------------------------------
  // getItemStatus

  const DayMs: int := 86_400_000

  /** The local day an instant falls on. */
  function DayOf(t: int): int {
    t / DayMs
  }

  /** `setHours(0, 0, 0, 0)`: the first instant of the local day. */
  function StartOfDay(t: int): int {
    t - t % DayMs
  }

  datatype Status = Expired | ExpiresSoon | Fine

  /** The CSS class a status is shown with. */
  function StatusClass(s: Status): (r: string)
    ensures r == "status-expired" <==> s == Expired
    ensures r == "status-soon" <==> s == ExpiresSoon
    ensures r == "status-ok" <==> s == Fine
  {
    match s
    case Expired => "status-expired"
    case ExpiresSoon => "status-soon"
    case Fine => "status-ok"
  }

  /** The label a status is shown with. */
  function StatusText(s: Status): (r: string)
    ensures r == "Expired" <==> s == Expired
    ensures r == "Expires Soon" <==> s == ExpiresSoon
    ensures r == "OK" <==> s == Fine
  {
    match s
    case Expired => "Expired"
    case ExpiresSoon => "Expires Soon"
    case Fine => "OK"
  }

  /** How close to (or past) expiry a status is. */
  function Severity(s: Status): nat {
    match s
    case Expired => 2
    case ExpiresSoon => 1
    case Fine => 0
  }

  /** `getItemStatus`. The 30-day bound is taken before the current time is
      truncated to midnight, so it keeps the time of day. An unparseable
      expiry date compares false with everything and is reported OK. */
  function ItemStatus(now: int, expiry: Option<int>): (r: Status)
    // expired: the expiry day is before today
    ensures r == Expired <==> expiry.Some? && DayOf(expiry.value) < DayOf(now)
    // expiring soon: from today up to and including the 30th day from today
    ensures r == ExpiresSoon <==>
              expiry.Some? && DayOf(now) <= DayOf(expiry.value) <= DayOf(now) + 30
    ensures r == Fine <==> expiry.None? || DayOf(expiry.value) > DayOf(now) + 30
  {
    var thirtyDaysFromNow := now + 30 * DayMs;
    match expiry
    case None => Fine
    case Some(e) =>
      var today := StartOfDay(now);
      var expiryDay := StartOfDay(e);
      assert today == DayOf(now) * DayMs && expiryDay == DayOf(e) * DayMs;
      assert DayOf(now) * DayMs <= now < DayOf(now) * DayMs + DayMs;
      if expiryDay < today then Expired
      else if expiryDay <= thirtyDaysFromNow then ExpiresSoon
      else Fine
  }

  /** A later expiry date never gives a more severe status. */
  lemma StatusMonotoneInExpiry(now: int, e1: int, e2: int)
    requires e1 <= e2
    ensures Severity(ItemStatus(now, Some(e2))) <= Severity(ItemStatus(now, Some(e1)))
  {
    DayOfMonotone(e1, e2);
  }

  /** As time passes an item's status never becomes less severe. */
  lemma StatusMonotoneInTime(now1: int, now2: int, expiry: Option<int>)
    requires now1 <= now2
    ensures Severity(ItemStatus(now1, expiry)) <= Severity(ItemStatus(now2, expiry))
  {
    DayOfMonotone(now1, now2);
  }

  lemma DayOfMonotone(a: int, b: int)
    requires a <= b
    ensures DayOf(a) <= DayOf(b)
  {
    assert DayOf(a) * DayMs <= a && b < DayOf(b) * DayMs + DayMs;
  }

  // ---------------------------------------------------------------------------
  // Path parsing and enterKit

  /** `String.prototype.split` with a one-character separator. */
  function Split(s: string, sep: char): (r: seq<string>)
    ensures |r| >= 1
    ensures Join(r, sep) == s
    decreases |s|
  {
    if sep !in s then [s]
    else
      var i := IndexOf(s, sep);
      var rest := Split(s[i + 1..], sep);
      var r := [s[..i]] + rest;
      assert r[1..] == rest;
      assert s == s[..i] + [sep] + s[i + 1..];
      r
  }

  /** No part of a split holds the separator. */
  lemma {:induction false} SplitPartsFree(s: string, sep: char)
    ensures forall i :: 0 <= i < |Split(s, sep)| ==> sep !in Split(s, sep)[i]
    decreases |s|
  {
    if sep in s {
      var i := IndexOf(s, sep);
      SplitPartsFree(s[i + 1..], sep);
      assert Split(s, sep) == [s[..i]] + Split(s[i + 1..], sep);
    }
  }

  /** Splitting at a first part that holds no separator. */
  lemma SplitCons(a: string, sep: char, b: string)
    requires sep !in a
    ensures Split(a + [sep] + b, sep) == [a] + Split(b, sep)
  {
    var s := a + [sep] + b;
    assert s[..|a|] == a && s[|a|] == sep;
    IndexOfAt(s, sep, |a|);
    assert s[|a| + 1..] == b;
  }

  /** Splitting undoes joining parts that hold no separator. */
  lemma {:induction false} SplitJoin(parts: seq<string>, sep: char)
    requires |parts| >= 1
    requires forall i :: 0 <= i < |parts| ==> sep !in parts[i]
    ensures Split(Join(parts, sep), sep) == parts
    decreases |parts|
  {
    if |parts| > 1 {
      SplitJoin(parts[1..], sep);
      SplitCons(parts[0], sep, Join(parts[1..], sep));
      assert [parts[0]] + parts[1..] == parts;
    }
  }

  datatype Route = KitSelectionRoute | KitManagementRoute(kitId: string)

  /** The "Initial State" block: `/kit/{id}` with a non-empty `{id}` opens
      that kit; anything else opens kit selection. */
  function RouteOf(pathname: string): (r: Route)
    ensures r.KitManagementRoute? ==> r.kitId != "" && '/' !in r.kitId
  {
    var parts := Split(pathname, '/');
    SplitPartsFree(pathname, '/');
    if |parts| >= 3 && parts[1] == "kit" && parts[2] != "" then KitManagementRoute(parts[2])
    else KitSelectionRoute
  }

  /** A string without the separator is a single part. */
  lemma SplitNoSep(s: string, sep: char)
    requires sep !in s
    ensures Split(s, sep) == [s]
  {
  }

  /** A segment followed by nothing or by a separator is the first part. */
  lemma SplitFirstSegment(id: string, rest: string)
    requires '/' !in id
    requires rest == "" || rest[0] == '/'
    ensures Split(id + rest, '/')[0] == id
  {
    if rest == "" {
      assert id + rest == id;
      SplitNoSep(id, '/');
    } else {
      var tail := rest[1..];
      assert rest == ['/'] + tail;
      assert id + rest == id + ['/'] + tail;
      SplitCons(id, '/', tail);
    }
  }

  /** The parts of `/kit/` followed by `q`: an empty part, `kit`, then the parts of `q`. */
  lemma KitPathParts(q: string)
    ensures Split("/kit/" + q, '/') == ["", "kit"] + Split(q, '/')
  {
    var tail := "kit" + ['/'] + q;
    // `/kit/q` is the empty part, a separator, then `kit/q`
    assert "/kit/" + q == "" + ['/'] + tail by {
      assert "/kit/" == ['/'] + "kit" + ['/'];
    }
    SplitCons("", '/', tail);
    SplitCons("kit", '/', q);
    assert Split(tail, '/') == ["kit"] + Split(q, '/');
    assert [""] + (["kit"] + Split(q, '/')) == ["", "kit"] + Split(q, '/');
  }

  /** Below `/kit/`, the first segment decides: a non-empty one is the kit id. */
  lemma RouteOfKitPrefix(q: string)
    ensures var first := Split(q, '/')[0];
            RouteOf("/kit/" + q) == if first != "" then KitManagementRoute(first) else KitSelectionRoute
  {
    KitPathParts(q);
    var parts := Split("/kit/" + q, '/');
    assert parts[1] == "kit" && parts[2] == Split(q, '/')[0];
  }

  /** `/kit/{id}`, alone or followed by further segments, opens kit `{id}`. */
  lemma RouteOfKitPath(id: string, rest: string)
    requires id != "" && '/' !in id
    requires rest == "" || rest[0] == '/'
    ensures RouteOf("/kit/" + id + rest) == KitManagementRoute(id)
  {
    SplitFirstSegment(id, rest);
    RouteOfKitPrefix(id + rest);
    assert "/kit/" + id + rest == "/kit/" + (id + rest);
  }

  /** Conversely, a path that opens a kit starts with `/kit/{id}`, followed by
      nothing or by another segment. */
  lemma RouteOfShape(pathname: string)
    requires |pathname| > 0 && pathname[0] == '/'
    requires RouteOf(pathname).KitManagementRoute?
    ensures var prefix := "/kit/" + RouteOf(pathname).kitId;
            prefix <= pathname && (|pathname| == |prefix| || pathname[|prefix|] == '/')
  {
    assert pathname[0] in pathname;
    var parts := Split(pathname, '/');
    var id := parts[2];
    assert parts[0] == "";
    var tail := Join(parts[1..], '/');
    assert pathname == "/" + tail;
    assert parts[1..][1..] == parts[2..];
    assert tail == "kit" + ['/'] + Join(parts[2..], '/');
    var tail2 := Join(parts[2..], '/');
    if |parts| > 3 {
      assert parts[2..][1..] == parts[3..];
      assert tail2 == id + ['/'] + Join(parts[3..], '/');
    } else {
      assert tail2 == id;
    }
    assert pathname == "/kit/" + tail2;
  }

  /** `/kit/` with an empty third segment opens kit selection. */
  lemma KitWithoutIdIsSelection(rest: string)
    requires rest == "" || rest[0] == '/'
    ensures RouteOf("/kit/" + rest) == KitSelectionRoute
  {
    SplitFirstSegment("", rest);
    assert "" + rest == rest;
    RouteOfKitPrefix(rest);
  }

  /** The root path opens kit selection. */
  lemma RootIsSelection()
    ensures RouteOf("/") == KitSelectionRoute
  {
    assert "/" == "" + ['/'] + "";
    SplitCons("", '/', "");
    assert Split("", '/') == [""];
  }

  datatype EnterOutcome = MissingKitCode | NavigateTo(url: string)

  /** `enterKit`: a blank kit code is refused; otherwise the page goes to
      `/kit/` followed by the trimmed code. */
  function EnterKit(input: string): (r: EnterOutcome)
    ensures r.MissingKitCode? <==> AllWhitespace(input)
    ensures r.NavigateTo? ==> r.url == "/kit/" + Trim(input)
  {
    var kitId := Trim(input);
    TrimEmptyIffBlank(input);
    if kitId == "" then MissingKitCode else NavigateTo("/kit/" + kitId)
  }

  /** The kit code typed in is the kit the new page opens, when it holds no `/`. */
  lemma EnterKitRoundTrip(input: string)
    requires !AllWhitespace(input)
    requires '/' !in Trim(input)
    ensures EnterKit(input).NavigateTo?
    ensures RouteOf(EnterKit(input).url) == KitManagementRoute(Trim(input))
  {
    var id := Trim(input);
    TrimEmptyIffBlank(input);
    RouteOfKitPath(id, "");
    assert "/kit/" + id + "" == "/kit/" + id;
  }

  // ---------------------------------------------------------------------------
  // showView

  datatype View = KitSelection | KitManagement | AllItems

  /** The name `showView` is called with for a view. */
  function ViewName(v: View): string {
    match v
    case KitSelection => "kit-selection"
    case KitManagement => "kit-management"
    case AllItems => "all-items"
  }

  /** A `style.display` value. */
  datatype Display = Hidden | Flex | Block

  /** What `showView` sets: the three views, the add-item controls and the
      add-item form container (`None` when the page has no such element). */
  datatype Page = Page(selection: Display, management: Display, allItems: Display,
                       nameInputEnabled: bool, expiryInputEnabled: bool, addButtonEnabled: bool,
                       formContainer: Option<Display>)

  function Shown(d: Display): nat {
    if d == Hidden then 0 else 1
  }

  /** Exactly one of the three views is displayed. */
  predicate OneViewShown(p: Page) {
    Shown(p.selection) + Shown(p.management) + Shown(p.allItems) == 1
  }

  /** `showView`: hide everything and disable the form, then show one view. */
  function ShowView(viewName: string, hasFormContainer: bool): (p: Page)
    ensures OneViewShown(p)
    ensures p.management != Hidden <==> viewName == "kit-management"
    ensures p.allItems != Hidden <==> viewName == "all-items"
    // any other name falls back to kit selection
    ensures p.selection != Hidden <==> viewName != "kit-management" && viewName != "all-items"
    // the add-item controls are usable exactly in kit management
    ensures p.nameInputEnabled <==> viewName == "kit-management"
    ensures p.expiryInputEnabled <==> viewName == "kit-management"
    ensures p.addButtonEnabled <==> viewName == "kit-management"
    ensures p.formContainer.Some? <==> hasFormContainer
    ensures p.formContainer == Some(Flex) <==> hasFormContainer && viewName == "kit-management"
  {
    var base := Page(Hidden, Hidden, Hidden, false, false, false,
                     if hasFormContainer then Some(Hidden) else None);
    if viewName == "kit-management" then
      base.(management := Flex, nameInputEnabled := true, expiryInputEnabled := true,
            addButtonEnabled := true,
            formContainer := if hasFormContainer then Some(Flex) else None)
    else if viewName == "all-items" then
      base.(allItems := Block)
    else
      base.(selection := Flex)
  }

  /** The view a page shows. */
  function VisibleView(p: Page): View {
    if p.management != Hidden then KitManagement
    else if p.allItems != Hidden then AllItems
    else KitSelection
  }

  /** Showing a view by its name shows that view. */
  lemma ShowViewShowsNamedView(v: View, hasFormContainer: bool)
    ensures VisibleView(ShowView(ViewName(v), hasFormContainer)) == v
  {
  }

  /** The page's state: the kit it was opened on and what is displayed. */
  datatype PageState = PageState(currentKitId: Option<string>, page: Page)

  /** The state when the page loads at `pathname`. */
  function InitialState(pathname: string, hasFormContainer: bool): (s: PageState)
    ensures s.currentKitId.Some? <==> RouteOf(pathname).KitManagementRoute?
    // the open kit is the id read from the path
    ensures RouteOf(pathname).KitManagementRoute? ==> s.currentKitId == Some(RouteOf(pathname).kitId)
    ensures OneViewShown(s.page)
    ensures VisibleView(s.page) == (if s.currentKitId.Some? then KitManagement else KitSelection)
    // the add-item controls are usable exactly when a kit is open
    ensures s.page.nameInputEnabled <==> s.currentKitId.Some?
    ensures s.page.expiryInputEnabled <==> s.currentKitId.Some?
    ensures s.page.addButtonEnabled <==> s.currentKitId.Some?
  {
    match RouteOf(pathname)
    case KitManagementRoute(id) =>
      PageState(Some(id), ShowView(ViewName(KitManagement), hasFormContainer))
    case KitSelectionRoute =>
      PageState(None, ShowView(ViewName(KitSelection), hasFormContainer))
  }

  /** What the page reacts to without navigating away: the all-items list
      loaded, or the back button pressed. */
  datatype PageEvent = AllItemsLoaded | BackToKitSelection

  function Step(s: PageState, e: PageEvent, hasFormContainer: bool): (r: PageState)
    // the open kit never changes
    ensures r.currentKitId == s.currentKitId
    ensures OneViewShown(r.page)
    ensures VisibleView(r.page) == (if e == AllItemsLoaded then AllItems else KitSelection)
    // neither view lets an item be added
    ensures !r.page.nameInputEnabled && !r.page.expiryInputEnabled && !r.page.addButtonEnabled
  {
    ShowViewShowsNamedView(AllItems, hasFormContainer);
    ShowViewShowsNamedView(KitSelection, hasFormContainer);
    match e
    case AllItemsLoaded => s.(page := ShowView(ViewName(AllItems), hasFormContainer))
    case BackToKitSelection => s.(page := ShowView(ViewName(KitSelection), hasFormContainer))
  }

  /** The add-item form is enabled only while a kit is open, so an item is
      never posted for a missing kit id. */
  predicate FormNeedsKit(s: PageState) {
    s.page.addButtonEnabled ==> s.currentKitId.Some?
  }

  /** Every sequence of events from page load keeps the form tied to an open
      kit, and never changes which kit is open. */
  lemma {:induction false} FormNeedsKitAlways(pathname: string, events: seq<PageEvent>, hasFormContainer: bool)
    ensures var s := Run(InitialState(pathname, hasFormContainer), events, hasFormContainer);
            FormNeedsKit(s) && s.currentKitId == InitialState(pathname, hasFormContainer).currentKitId
    decreases |events|
  {
    if |events| > 0 {
      FormNeedsKitAlways(pathname, events[..|events| - 1], hasFormContainer);
    }
  }

  function Run(s: PageState, events: seq<PageEvent>, hasFormContainer: bool): PageState {
    if |events| == 0 then s
    else Step(Run(s, events[..|events| - 1], hasFormContainer), events[|events| - 1], hasFormContainer)
  }

  // ---------------------------------------------------------------------------
  // renderItems and renderAllItems

  datatype Row<T> = Row(number: nat, item: T, status: Status)

  datatype Rendering<T> = EmptyNotice(message: string) | Table(rows: seq<Row<T>>)

  function RowItems<T>(rows: seq<Row<T>>): (r: seq<T>)
    ensures |r| == |rows|
    ensures forall i :: 0 <= i < |rows| ==> r[i] == rows[i].item
  {
    if |rows| == 0 then [] else [rows[0].item] + RowItems(rows[1..])
  }

  /** The `forEach((item, index) => ...)` that numbers the sorted items. */
  function Number<T>(items: seq<T>, expiryOf: T -> int, now: int, first: nat): (r: seq<Row<T>>)
    ensures |r| == |items|
    ensures forall i :: 0 <= i < |r| ==>
              r[i] == Row(first + i, items[i], ItemStatus(now, Some(expiryOf(items[i]))))
  {
    if |items| == 0 then []
    else [Row(first, items[0], ItemStatus(now, Some(expiryOf(items[0]))))]
         + Number(items[1..], expiryOf, now, first + 1)
  }

  /** Sorting by expiry: `a` may stand before `b` when it expires no later. */
  predicate ExpiresNoLater<T>(expiryOf: T -> int, a: T, b: T) {
    expiryOf(a) <= expiryOf(b)
  }

  /** The comparator `new Date(a.expiry_date) - new Date(b.expiry_date)` as a "may precede" relation. */
  function ByExpiry<T>(expiryOf: T -> int): (T, T) -> bool {
    (a, b) => ExpiresNoLater(expiryOf, a, b)
  }

  /** Sorting by expiry sorts by a total preorder, and the result is in ascending expiry order. */
  lemma SortByExpiry<T(!new)>(items: seq<T>, expiryOf: T -> int)
    ensures forall i, j :: 0 <= i < j < |Sort(items, ByExpiry(expiryOf))| ==>
              expiryOf(Sort(items, ByExpiry(expiryOf))[i]) <= expiryOf(Sort(items, ByExpiry(expiryOf))[j])
  {
    var le := ByExpiry(expiryOf);
    assert TotalPreorder(le);
    SortSorted(items, le);
    var sorted := Sort(items, le);
    forall i, j | 0 <= i < j < |sorted|
      ensures expiryOf(sorted[i]) <= expiryOf(sorted[j])
    {
      assert le(sorted[i], sorted[j]);
    }
  }

  /** The body of `renderItems` and `renderAllItems`: a notice for no items,
      otherwise one row per item, sorted by expiry and numbered from 1. */
  function RenderTable<T(!new)>(items: seq<T>, expiryOf: T -> int, now: int, emptyMessage: string)
    : (r: Rendering<T>)
    ensures r.EmptyNotice? <==> |items| == 0
    ensures r.EmptyNotice? ==> r.message == emptyMessage
    ensures r.Table? ==> |r.rows| == |items|
    // rows are numbered 1..n consecutively
    ensures r.Table? ==> forall i :: 0 <= i < |r.rows| ==> r.rows[i].number == i + 1
    // every item appears, as often as it was given
    ensures r.Table? ==> multiset(RowItems(r.rows)) == multiset(items)
    // in ascending expiry order
    ensures r.Table? ==> forall i, j :: 0 <= i < j < |r.rows| ==>
              expiryOf(r.rows[i].item) <= expiryOf(r.rows[j].item)
    // each row shows the item's status
    ensures r.Table? ==> forall i :: 0 <= i < |r.rows| ==>
              r.rows[i].status == ItemStatus(now, Some(expiryOf(r.rows[i].item)))
  {
    if |items| == 0 then EmptyNotice(emptyMessage)
    else
      var sorted := Sort(items, ByExpiry(expiryOf));
      SortByExpiry(items, expiryOf);
      var rows := Number(sorted, expiryOf, now, 1);
      assert RowItems(rows) == sorted;
      Table(rows)
  }

  /** Statuses down a rendered table only get less severe: expired rows first,
      then those expiring soon, then the rest. */
  lemma RenderedStatusesOrdered<T(!new)>(items: seq<T>, expiryOf: T -> int, now: int, emptyMessage: string)
    ensures var r := RenderTable(items, expiryOf, now, emptyMessage);
            r.Table? ==> forall i, j :: 0 <= i < j < |r.rows| ==>
                           Severity(r.rows[j].status) <= Severity(r.rows[i].status)
  {
    var r := RenderTable(items, expiryOf, now, emptyMessage);
    if r.Table? {
      RowStatusesOrdered(r.rows, expiryOf, now);
    }
  }

  /** Rows in ascending expiry order that show their items' statuses. */
  lemma RowStatusesOrdered<T>(rows: seq<Row<T>>, expiryOf: T -> int, now: int)
    requires forall i, j :: 0 <= i < j < |rows| ==> expiryOf(rows[i].item) <= expiryOf(rows[j].item)
    requires forall i :: 0 <= i < |rows| ==> rows[i].status == ItemStatus(now, Some(expiryOf(rows[i].item)))
    ensures forall i, j :: 0 <= i < j < |rows| ==> Severity(rows[j].status) <= Severity(rows[i].status)
  {
    forall i, j | 0 <= i < j < |rows|
      ensures Severity(rows[j].status) <= Severity(rows[i].status)
    {
      StatusMonotoneInExpiry(now, expiryOf(rows[i].item), expiryOf(rows[j].item));
    }
  }

  /** `renderItems` for one kit; `dateOf` stands for `new Date(item.expiry_date)`. */
  function RenderKitItems(items: seq<KitStore.Item>, dateOf: string -> int, now: int)
    : (r: Rendering<KitStore.Item>)
    ensures r.EmptyNotice? <==> |items| == 0
    ensures r.EmptyNotice? ==> r.message == "This kit is empty."
    ensures r.Table? ==> multiset(RowItems(r.rows)) == multiset(items)
    ensures r.Table? ==> forall i, j :: 0 <= i < j < |r.rows| ==>
              dateOf(r.rows[i].item.expiryDate) <= dateOf(r.rows[j].item.expiryDate)
  {
    RenderTable(items, (it: KitStore.Item) => dateOf(it.expiryDate), now, "This kit is empty.")
  }

  /** `renderAllItems` for the listing of all kits. */
  function RenderAllItems(items: seq<KitStore.TaggedItem>, dateOf: string -> int, now: int)
    : (r: Rendering<KitStore.TaggedItem>)
    ensures r.EmptyNotice? <==> |items| == 0
    ensures r.EmptyNotice? ==> r.message == "No items found across all kits."
    ensures r.Table? ==> multiset(RowItems(r.rows)) == multiset(items)
    ensures r.Table? ==> forall i, j :: 0 <= i < j < |r.rows| ==>
              dateOf(r.rows[i].item.expiryDate) <= dateOf(r.rows[j].item.expiryDate)
  {
    RenderTable(items, (it: KitStore.TaggedItem) => dateOf(it.expiryDate), now,
                "No items found across all kits.")
  }
}

=== FILE: kit_store.dfy ===
/**
  The kit store behind the HTTP API (main.py): a JSON object mapping kit ids
  to lists of items, read from the data file before every request and written
  back after every change. The object is modelled as its entries in key
  order, which is the order `dict.items()` visits them in.
 */
module KitStore {
  import opened Wrappers

  datatype Item = Item(id: string, name: string, expiryDate: string)

  datatype Kit = Kit(id: string, items: seq<Item>)

  /** An entry of the all-items listing: the item with the id of its kit. */
  datatype TaggedItem = TaggedItem(id: string, name: string, expiryDate: string, kitId: string)

  /** The JSON object in the data file, entries in key order. */
  type Store = seq<Kit>

  /** A dictionary holds each key once. */
  predicate WellFormed(s: Store) {
    forall i, j :: 0 <= i < j < |s| ==> s[i].id != s[j].id
  }

  /** What opening and parsing the data file yields. */
  datatype DataFile = Missing | Corrupt | Stored(data: Store)

  /** The HTTP error raised by an endpoint. */
  datatype HttpError = HttpError(status: int, detail: string)

  const KitNotFound := HttpError(404, "Kit not found")
  const ItemNotFound := HttpError(404, "Item not found")

  /** `read_data`: the stored object, or the empty one when the file is
      missing or is not valid JSON. */
  function ReadData(f: DataFile): (r: Store)
    requires f.Stored? ==> WellFormed(f.data)
    ensures WellFormed(r)
    ensures f.Stored? ==> r == f.data
    ensures f.Missing? || f.Corrupt? ==> r == []
  {
    match f
    case Stored(data) => data
    case _ => []
  }

  /** Position of the entry for kit `k`, scanning in key order. */
  function KitIndex(s: Store, k: string): (r: Option<nat>)
    ensures r.Some? ==> r.value < |s| && s[r.value].id == k
    ensures r.None? ==> forall i :: 0 <= i < |s| ==> s[i].id != k
  {
    if |s| == 0 then None
    else if s[0].id == k then Some(0)
    else
      match KitIndex(s[1..], k)
      case None => None
      case Some(i) => Some(i + 1)
  }

  /** `get_kit_items`: the stored list of a known kit, `[]` for an unknown one.
      The store is only read. */
  function GetKitItems(s: Store, k: string): (r: seq<Item>)
    requires WellFormed(s)
    ensures forall i :: 0 <= i < |s| && s[i].id == k ==> r == s[i].items
    ensures (forall i :: 0 <= i < |s| ==> s[i].id != k) ==> r == []
  {
    match KitIndex(s, k)
    case None => []
    case Some(i) => s[i].items
  }

  /** `add_item_to_kit`: creates the kit with an empty list when absent, then
      appends the item. Duplicate item ids are not rejected. */
  function AddItem(s: Store, k: string, it: Item): (r: Store)
    requires WellFormed(s)
    ensures WellFormed(r)
    ensures |s| <= |r| <= |s| + 1
    // another kit keeps its position and its list
    ensures forall i :: 0 <= i < |s| && s[i].id != k ==> r[i] == s[i]
    // a known kit gets the item appended at the end of its list
    ensures forall i :: 0 <= i < |s| && s[i].id == k ==>
              |r| == |s| && r[i] == Kit(k, s[i].items + [it])
    // an unknown kit is added as the last key, holding just the item
    ensures (forall i :: 0 <= i < |s| ==> s[i].id != k) ==> r == s + [Kit(k, [it])]
  {
    match KitIndex(s, k)
    case None => s + [Kit(k, [it])]
    case Some(i) => s[i := Kit(k, s[i].items + [it])]
  }

  /** The item the endpoint answers with: the one it was sent. */
  function AddItemResponse(s: Store, k: string, it: Item): (r: Item)
    requires WellFormed(s)
    ensures r in GetKitItems(AddItem(s, k, it), k)
    ensures r == it
  {
    var s' := AddItem(s, k, it);
    assert GetKitItems(s', k) == GetKitItems(s, k) + [it] by {
      AddThenGet(s, k, it);
    }
    it
  }

  /** The generator expression `next((item for item in items if item['id'] == item_id), None)`. */
  function FirstWithId(items: seq<Item>, itemId: string): (r: Option<nat>)
    ensures r.Some? ==> r.value < |items| && items[r.value].id == itemId
    ensures r.Some? ==> forall m :: 0 <= m < r.value ==> items[m].id != itemId
    ensures r.None? ==> forall m :: 0 <= m < |items| ==> items[m].id != itemId
  {
    if |items| == 0 then None
    else if items[0].id == itemId then Some(0)
    else
      match FirstWithId(items[1..], itemId)
      case None => None
      case Some(m) => Some(m + 1)
  }

  /** `list.remove(x)`: deletes the first element equal to `x`. */
  function RemoveFirstEqual(items: seq<Item>, x: Item): (r: seq<Item>)
    requires x in items
    ensures |r| == |items| - 1
  {
    assert items == [items[0]] + items[1..];
    if items[0] == x then items[1..]
    else [items[0]] + RemoveFirstEqual(items[1..], x)
  }

  /** `list.remove` takes away one occurrence of `x` and keeps everything else. */
  lemma {:induction false} RemoveFirstEqualCounts(items: seq<Item>, x: Item)
    requires x in items
    ensures multiset(RemoveFirstEqual(items, x)) == multiset(items) - multiset{x}
    decreases |items|
  {
    var tail := items[1..];
    assert items == [items[0]] + tail;
    if items[0] != x {
      RemoveFirstEqualCounts(tail, x);
    }
  }

  /** Removing the first element equal to the first item with a given id
      deletes exactly that position: earlier elements have other ids. */
  lemma {:induction false} RemoveFirstEqualAt(items: seq<Item>, j: nat)
    requires j < |items|
    requires forall m :: 0 <= m < j ==> items[m].id != items[j].id
    ensures RemoveFirstEqual(items, items[j]) == items[..j] + items[j + 1..]
    decreases j
  {
    if j == 0 {
      assert items[..0] + items[1..] == items[1..];
    } else {
      var tail := items[1..];
      assert tail[j - 1] == items[j];
      forall m | 0 <= m < j - 1
        ensures tail[m].id != tail[j - 1].id
      {
        assert tail[m] == items[m + 1];
      }
      RemoveFirstEqualAt(tail, j - 1);
      assert items[0] != items[j] by {
        assert items[0].id != items[j].id;
      }
      assert RemoveFirstEqual(items, items[j]) == [items[0]] + RemoveFirstEqual(tail, items[j]);
      assert items[..j] == [items[0]] + tail[..j - 1];
      assert items[j + 1..] == tail[j..];
    }
  }

  /** `remove_item_from_kit`: the store to write back, or the 404 raised before
      anything is written. */
  function RemoveItem(s: Store, k: string, itemId: string): (r: Result<Store, HttpError>)
    requires WellFormed(s)
    ensures r == Failure(KitNotFound) <==> forall i :: 0 <= i < |s| ==> s[i].id != k
    ensures r == Failure(ItemNotFound) <==>
              exists i :: 0 <= i < |s| && s[i].id == k
                          && forall m :: 0 <= m < |s[i].items| ==> s[i].items[m].id != itemId
    // the two 404s are the only failures
    ensures r.Failure? ==> r.error == KitNotFound || r.error == ItemNotFound
    ensures r.Success? ==> WellFormed(r.value) && |r.value| == |s|
    // other kits keep their positions and lists
    ensures r.Success? ==> forall i :: 0 <= i < |s| && s[i].id != k ==> r.value[i] == s[i]
    // in the kit, exactly the first item with that id is deleted
    ensures r.Success? ==>
              forall i :: 0 <= i < |s| && s[i].id == k ==>
                exists j :: 0 <= j < |s[i].items| && s[i].items[j].id == itemId
                            && (forall m :: 0 <= m < j ==> s[i].items[m].id != itemId)
                            && r.value[i] == Kit(k, s[i].items[..j] + s[i].items[j + 1..])
  {
    match KitIndex(s, k)
    case None => Failure(KitNotFound)
    case Some(i) =>
      var items := s[i].items;
      match FirstWithId(items, itemId)
      case None => Failure(ItemNotFound)
      case Some(j) =>
        RemoveFirstEqualAt(items, j);
        Success(s[i := Kit(k, RemoveFirstEqual(items, items[j]))])
  }

  /** The copy of an item with `kit_id` set. */
  function Tag(it: Item, kitId: string): TaggedItem {
    TaggedItem(it.id, it.name, it.expiryDate, kitId)
  }

  function TagAll(items: seq<Item>, kitId: string): (r: seq<TaggedItem>)
    ensures |r| == |items|
    ensures forall j :: 0 <= j < |items| ==> r[j] == Tag(items[j], kitId)
  {
    if |items| == 0 then []
    else TagAll(items[..|items| - 1], kitId) + [Tag(items[|items| - 1], kitId)]
  }

  /** Reference listing: every kit's tagged items, kits in key order. */
  function Flatten(s: Store): seq<TaggedItem> {
    if |s| == 0 then []
    else Flatten(s[..|s| - 1]) + TagAll(s[|s| - 1].items, s[|s| - 1].id)
  }

  /** Number of items over all kits. */
  function TotalItems(s: Store): nat {
    if |s| == 0 then 0
    else TotalItems(s[..|s| - 1]) + |s[|s| - 1].items|
  }

  /** `get_all_items`: the two nested loops of the endpoint. */
  method AllItems(s: Store) returns (r: seq<TaggedItem>)
    ensures r == Flatten(s)
  {
    r := [];
    var i := 0;
    while i < |s|
      invariant 0 <= i <= |s|
      invariant r == Flatten(s[..i])
    {
      var items := s[i].items;
      var j := 0;
      while j < |items|
        invariant 0 <= j <= |items|
        invariant r == Flatten(s[..i]) + TagAll(items[..j], s[i].id)
      {
        assert items[..j + 1][..j] == items[..j];
        r := r + [Tag(items[j], s[i].id)];
        j := j + 1;
      }
      assert s[..i + 1][..i] == s[..i];
      assert items[..j] == items;
      i := i + 1;
    }
    assert s[..i] == s;
  }

  /** The listing has one entry per stored item. */
  lemma {:induction false} FlattenLength(s: Store)
    ensures |Flatten(s)| == TotalItems(s)
    decreases |s|
  {
    if |s| > 0 {
      FlattenLength(s[..|s| - 1]);
    }
  }

  /** Kit `i`'s `j`-th item sits, tagged with kit `i`'s id, after the items of
      all earlier kits: kit order first, then item order. */
  lemma {:induction false} FlattenAt(s: Store, i: nat, j: nat)
    requires i < |s| && j < |s[i].items|
    ensures TotalItems(s[..i]) + j < |Flatten(s)|
    ensures Flatten(s)[TotalItems(s[..i]) + j] == Tag(s[i].items[j], s[i].id)
    decreases |s|
  {
    var n := |s| - 1;
    FlattenLength(s[..n]);
    if i == n {
      assert s[..i] == s[..n];
    } else {
      assert s[..n][..i] == s[..i];
      FlattenAt(s[..n], i, j);
    }
  }

  /** Replacing one kit's list changes the item count by the difference in length. */
  lemma {:induction false} TotalItemsUpdate(s: Store, i: nat, kit: Kit)
    requires i < |s|
    ensures TotalItems(s[i := kit]) == TotalItems(s) - |s[i].items| + |kit.items|
    decreases |s|
  {
    var n := |s| - 1;
    var t := s[i := kit];
    if i < n {
      assert t[..n] == s[..n][i := kit];
      TotalItemsUpdate(s[..n], i, kit);
    } else {
      assert t[..n] == s[..n];
    }
  }

  /** Adding then reading a kit returns its old list with the item at the end. */
  lemma AddThenGet(s: Store, k: string, it: Item)
    requires WellFormed(s)
    ensures GetKitItems(AddItem(s, k, it), k) == GetKitItems(s, k) + [it]
  {
    var r := AddItem(s, k, it);
    match KitIndex(s, k)
    case None =>
      assert r[|s|].id == k;
    case Some(i) =>
      assert r[i].id == k;
  }

  /** A successful removal takes exactly one item out of the whole store. */
  lemma RemoveDropsOneItem(s: Store, k: string, itemId: string)
    requires WellFormed(s)
    requires RemoveItem(s, k, itemId).Success?
    ensures TotalItems(RemoveItem(s, k, itemId).value) == TotalItems(s) - 1
  {
    var i := KitIndex(s, k).value;
    var r := RemoveItem(s, k, itemId).value;
    assert r == s[i := r[i]];
    TotalItemsUpdate(s, i, r[i]);
  }

  /** Adding an item with a fresh id to a known kit and then removing that id
      restores the store. */
  lemma AddThenRemoveRestores(s: Store, k: string, it: Item)
    requires WellFormed(s)
    requires exists i :: 0 <= i < |s| && s[i].id == k
                         && forall m :: 0 <= m < |s[i].items| ==> s[i].items[m].id != it.id
    ensures RemoveItem(AddItem(s, k, it), k, it.id) == Success(s)
  {
    var i := KitIndex(s, k).value;
    var a := AddItem(s, k, it);
    assert a == s[i := Kit(k, s[i].items + [it])];
    var items := a[i].items;
    var j := |s[i].items|;
    assert KitIndex(a, k) == Some(i) by {
      var x := KitIndex(a, k).value;
      assert a[x].id == k == a[i].id;
    }
    assert FirstWithId(items, it.id) == Some(j) by {
      assert items[j].id == it.id;
      assert forall m :: 0 <= m < j ==> items[m].id != it.id;
    }
    RemoveAppended(s[i].items, it);
    assert a[i := Kit(k, s[i].items)] == s;
  }

  /** Removing an item appended behind items with other ids gives back the list. */
  lemma RemoveAppended(items: seq<Item>, it: Item)
    requires forall m :: 0 <= m < |items| ==> items[m].id != it.id
    ensures RemoveFirstEqual(items + [it], (items + [it])[|items|]) == items
  {
    var all := items + [it];
    RemoveFirstEqualAt(all, |items|);
    assert all[..|items|] + all[|items| + 1..] == items;
  }

  /** Removing an id that was added twice deletes the older item, not the one
      just added. */
  lemma RemoveAfterDuplicateAddKeepsNewest(s: Store, i: nat, j: nat, it: Item)
    requires WellFormed(s)
    requires i < |s| && j < |s[i].items| && s[i].items[j].id == it.id
    ensures var r := RemoveItem(AddItem(s, s[i].id, it), s[i].id, it.id);
            r.Success? && |r.value| == |s| && |r.value[i].items| == |s[i].items|
            && r.value[i].items[|s[i].items| - 1] == it
  {
    var k := s[i].id;
    var a := AddItem(s, k, it);
    assert KitIndex(a, k) == Some(i);
    var items := a[i].items;
    assert items == s[i].items + [it];
    assert items[j].id == it.id;
    var j' := FirstWithId(items, it.id).value;
    assert j' <= j;
    RemoveFirstEqualAt(items, j');
    var rest := items[..j'] + items[j' + 1..];
    assert RemoveItem(a, k, it.id) == Success(a[i := Kit(k, rest)]);
    assert rest[|rest| - 1] == items[|items| - 1];
  }
}

=== FILE: snapshots.dfy ===
/**
  Names of the archived copies written by the download job: a fixed prefix,
  the capture time as `YYYYMMDD_HHMMSS` (strftime `%Y%m%d_%H%M%S`) and
  `.json`. The job finds its newest archived item file by taking the
  lexicographically greatest name, which is sound because, for zero-padded
  fields and four-digit years, name order is capture-time order.
 */
module Snapshots {
  import opened Strings

  /** A wall-clock capture time, as `datetime.now()` yields it. */
  datatype Stamp = Stamp(year: int, month: int, day: int, hour: int, minute: int, second: int) {
    /** Fields in the ranges `datetime` allows, with a four-digit year. */
    predicate Valid() {
      && 1000 <= year <= 9999
      && 1 <= month <= 12
      && 1 <= day <= 31
      && 0 <= hour < 24
      && 0 <= minute < 60
      && 0 <= second < 60
    }
  }

  /** Chronological order: the first field that differs decides. */
  predicate Before(a: Stamp, b: Stamp) {
    if a.year != b.year then a.year < b.year
    else if a.month != b.month then a.month < b.month
    else if a.day != b.day then a.day < b.day
    else if a.hour != b.hour then a.hour < b.hour
    else if a.minute != b.minute then a.minute < b.minute
    else a.second < b.second
  }

  const ItemPrefix: string := "firstIAiditem_"
  const KitPrefix: string := "first_aid_kit_"
  const JsonSuffix: string := ".json"

  function Pow10(w: nat): (r: nat)
    ensures r > 0
  {
    if w == 0 then 1 else 10 * Pow10(w - 1)
  }

  function DigitChar(d: int): (c: char)
    requires 0 <= d < 10
    ensures IsAsciiDigit(c)
  {
    (48 + d) as char
  }

  predicate AllDigits(s: string) {
    forall i :: 0 <= i < |s| ==> IsAsciiDigit(s[i])
  }

  /** The `w`-digit zero-padded decimal text of `n`. */
  function Pad(n: nat, w: nat): (r: string)
    requires n < Pow10(w)
    ensures |r| == w
    ensures AllDigits(r)
  {
    if w == 0 then ""
    else Pad(n / 10, w - 1) + [DigitChar(n % 10)]
  }

  /** The number a string of decimal digits denotes. */
  function DigitsValue(s: string): nat
    requires AllDigits(s)
  {
    if |s| == 0 then 0
    else 10 * DigitsValue(s[..|s| - 1]) + (s[|s| - 1] as int - 48)
  }

  /** Reading the padded text back gives the number that was written. */
  lemma {:induction false} PadRoundTrip(n: nat, w: nat)
    requires n < Pow10(w)
    ensures DigitsValue(Pad(n, w)) == n
    decreases w
  {
    if w > 0 {
      var p := Pad(n, w);
      assert p[..|p| - 1] == Pad(n / 10, w - 1);
      PadRoundTrip(n / 10, w - 1);
    }
  }

  lemma PadInjective(a: nat, b: nat, w: nat)
    requires a < Pow10(w) && b < Pow10(w)
    requires Pad(a, w) == Pad(b, w)
    ensures a == b
  {
    PadRoundTrip(a, w);
    PadRoundTrip(b, w);
  }

  /** Equal-width padded numbers compare as text exactly as they compare as numbers. */
  lemma {:induction false} PadOrder(a: nat, b: nat, w: nat)
    requires a < Pow10(w) && b < Pow10(w)
    ensures LexLess(Pad(a, w), Pad(b, w)) <==> a < b
    decreases w
  {
    if w == 0 {
      LexLessIrreflexive("");
    } else {
      var pa, pb := Pad(a / 10, w - 1), Pad(b / 10, w - 1);
      var da, db := [DigitChar(a % 10)], [DigitChar(b % 10)];
      LexLessAppend(pa, da, pb, db);
      PadOrder(a / 10, b / 10, w - 1);
      if pa == pb {
        PadInjective(a / 10, b / 10, w - 1);
      }
      assert LexLess(da, db) <==> a % 10 < b % 10 by {
        assert da[1..] == [] && db[1..] == [];
      }
      assert a == 10 * (a / 10) + a % 10;
      assert b == 10 * (b / 10) + b % 10;
    }
  }

  /** The capture time as strftime `%Y%m%d_%H%M%S` writes it. */
  function StampText(st: Stamp): (r: string)
    requires st.Valid()
    ensures |r| == 15
    // eight digits of date, an underscore, six digits of time
    ensures AllDigits(r[..8]) && r[8] == '_' && AllDigits(r[9..])
  {
    var date := Pad(st.year, 4) + (Pad(st.month, 2) + Pad(st.day, 2));
    var time := Pad(st.hour, 2) + (Pad(st.minute, 2) + Pad(st.second, 2));
    var r := Pad(st.year, 4) + (Pad(st.month, 2) + (Pad(st.day, 2)
      + ("_" + (Pad(st.hour, 2) + (Pad(st.minute, 2) + Pad(st.second, 2))))));
    assert r == date + "_" + time;
    assert r[..8] == date && r[9..] == time;
    r
  }

  /** Reads a capture time back from its fifteen-character text. */
  function StampOfText(t: string): Stamp
    requires |t| == 15
    requires AllDigits(t[..8]) && AllDigits(t[9..])
  {
    Stamp(DigitsValue(t[0..4]), DigitsValue(t[4..6]), DigitsValue(t[6..8]),
          DigitsValue(t[9..11]), DigitsValue(t[11..13]), DigitsValue(t[13..15]))
  }

  /** The text of a capture time determines it: reading it back is lossless. */
  lemma StampTextRoundTrip(st: Stamp)
    requires st.Valid()
    ensures var t := StampText(st);
            AllDigits(t[..8]) && AllDigits(t[9..]) && StampOfText(t) == st
  {
    var t := StampText(st);
    assert t[0..4] == Pad(st.year, 4);
    assert t[4..6] == Pad(st.month, 2);
    assert t[6..8] == Pad(st.day, 2);
    assert t[9..11] == Pad(st.hour, 2);
    assert t[11..13] == Pad(st.minute, 2);
    assert t[13..15] == Pad(st.second, 2);
    PadRoundTrip(st.year, 4);
    PadRoundTrip(st.month, 2);
    PadRoundTrip(st.day, 2);
    PadRoundTrip(st.hour, 2);
    PadRoundTrip(st.minute, 2);
    PadRoundTrip(st.second, 2);
  }

  /** One fixed-width field followed by equal-length rests: the field decides
      unless equal, then the rests do. */
  lemma FieldThenRest(x: nat, y: nat, w: nat, s: string, t: string)
    requires x < Pow10(w) && y < Pow10(w)
    ensures LexLess(Pad(x, w) + s, Pad(y, w) + t) <==> x < y || (x == y && LexLess(s, t))
  {
    LexLessAppend(Pad(x, w), s, Pad(y, w), t);
    PadOrder(x, y, w);
    if Pad(x, w) == Pad(y, w) {
      PadInjective(x, y, w);
    }
  }

  /** Text order of capture times is chronological order. */
  lemma StampTextOrder(a: Stamp, b: Stamp)
    requires a.Valid() && b.Valid()
    ensures LexLess(StampText(a), StampText(b)) <==> Before(a, b)
  {
    var sa := Pad(a.minute, 2) + Pad(a.second, 2);
    var sb := Pad(b.minute, 2) + Pad(b.second, 2);
    FieldThenRest(a.second, b.second, 2, "", "");
    assert Pad(a.second, 2) + "" == Pad(a.second, 2) && Pad(b.second, 2) + "" == Pad(b.second, 2);
    FieldThenRest(a.minute, b.minute, 2, Pad(a.second, 2), Pad(b.second, 2));
    var ha, hb := Pad(a.hour, 2) + sa, Pad(b.hour, 2) + sb;
    FieldThenRest(a.hour, b.hour, 2, sa, sb);
    var ua, ub := "_" + ha, "_" + hb;
    LexLessAppend("_", ha, "_", hb);
    LexLessIrreflexive("_");
    var da, db := Pad(a.day, 2) + ua, Pad(b.day, 2) + ub;
    FieldThenRest(a.day, b.day, 2, ua, ub);
    var ma, mb := Pad(a.month, 2) + da, Pad(b.month, 2) + db;
    FieldThenRest(a.month, b.month, 2, da, db);
    FieldThenRest(a.year, b.year, 4, ma, mb);
  }

  /** The archive name of a capture, for the file prefix `prefix`. */
  function SnapshotName(prefix: string, st: Stamp): (r: string)
    requires st.Valid()
    ensures |r| == |prefix| + 20
    // the prefix, the 15-character stamp, then `.json`
    ensures r[..|prefix|] == prefix
    ensures r[|prefix|..|prefix| + 15] == StampText(st)
    ensures r[|prefix| + 15..] == JsonSuffix
  {
    prefix + StampText(st) + JsonSuffix
  }

  /** Archive names with a common prefix sort in capture-time order. */
  lemma SnapshotNameOrder(prefix: string, a: Stamp, b: Stamp)
    requires a.Valid() && b.Valid()
    ensures LexLess(SnapshotName(prefix, a), SnapshotName(prefix, b)) <==> Before(a, b)
  {
    var ta, tb := StampText(a), StampText(b);
    assert SnapshotName(prefix, a) == prefix + (ta + JsonSuffix);
    assert SnapshotName(prefix, b) == prefix + (tb + JsonSuffix);
    LexLessAppend(prefix, ta + JsonSuffix, prefix, tb + JsonSuffix);
    LexLessIrreflexive(prefix);
    LexLessAppend(ta, JsonSuffix, tb, JsonSuffix);
    LexLessIrreflexive(JsonSuffix);
    StampTextOrder(a, b);
  }
}

=== FILE: sorting.dfy ===
/**
  A stable insertion sort over a caller-supplied "may precede" relation.
  `Array.prototype.sort` and Python's `list.sort` leave the algorithm open;
  this is one admissible algorithm. Whatever relation it is given, the result
  is a permutation of the input; when the relation is a total preorder the
  result is ordered by it. The module also holds the sequence helpers the
  sort's clients share: freedom from repeats and first-occurrence indices.
 */
module Sorting {

  /** `le` is total and transitive: it ranks every pair of values. */
  ghost predicate TotalPreorder<T(!new)>(le: (T, T) -> bool) {
    && (forall a, b :: le(a, b) || le(b, a))
    && (forall a, b, c :: le(a, b) && le(b, c) ==> le(a, c))
  }

  /** The same relation read backwards, for a descending sort. */
  function Reversed<T>(le: (T, T) -> bool): (T, T) -> bool {
    (a, b) => le(b, a)
  }

  lemma ReversedTotalPreorder<T(!new)>(le: (T, T) -> bool)
    requires TotalPreorder(le)
    ensures TotalPreorder(Reversed(le))
  {
    var re := Reversed(le);
    assert forall a, b :: re(a, b) == le(b, a);
  }

  /** Every element may precede every later element. */
  predicate SortedBy<T>(s: seq<T>, le: (T, T) -> bool) {
    forall i, j :: 0 <= i < j < |s| ==> le(s[i], s[j])
  }

  /** Places `x` in front of the first element it may precede. */
  function Insert<T>(x: T, s: seq<T>, le: (T, T) -> bool): (r: seq<T>)
    ensures |r| == |s| + 1
    ensures multiset(r) == multiset(s) + multiset{x}
  {
    if |s| == 0 then [x]
    else if le(x, s[0]) then [x] + s
    else
      assert s == [s[0]] + s[1..];
      [s[0]] + Insert(x, s[1..], le)
  }

  /** Sorts `s` by inserting its elements, last first, into a sorted tail. */
  function Sort<T>(s: seq<T>, le: (T, T) -> bool): (r: seq<T>)
    ensures |r| == |s|
    ensures multiset(r) == multiset(s)
  {
    if |s| == 0 then []
    else
      assert s == [s[0]] + s[1..];
      Insert(s[0], Sort(s[1..], le), le)
  }

  lemma {:induction false} InsertSorted<T(!new)>(x: T, s: seq<T>, le: (T, T) -> bool)
    requires TotalPreorder(le)
    requires SortedBy(s, le)
    ensures SortedBy(Insert(x, s, le), le)
    decreases |s|
  {
    if |s| > 0 && !le(x, s[0]) {
      var tail := Insert(x, s[1..], le);
      InsertSorted(x, s[1..], le);
      assert le(s[0], x);
      forall k | 0 <= k < |tail|
        ensures le(s[0], tail[k])
      {
        assert tail[k] in multiset(tail);
        assert tail[k] in multiset(s[1..]) + multiset{x};
        if tail[k] != x {
          assert tail[k] in s[1..];
          var m :| 0 <= m < |s[1..]| && s[1..][m] == tail[k];
          assert s[1..][m] == s[m + 1];
        }
      }
      var r := [s[0]] + tail;
      forall i, j | 0 <= i < j < |r|
        ensures le(r[i], r[j])
      {
        if i == 0 {
          assert r[j] == tail[j - 1];
        } else {
          assert r[i] == tail[i - 1] && r[j] == tail[j - 1];
        }
      }
    }
  }

  /** Under a total preorder the result of `Sort` is ordered. */
  lemma {:induction false} SortSorted<T(!new)>(s: seq<T>, le: (T, T) -> bool)
    requires TotalPreorder(le)
    ensures SortedBy(Sort(s, le), le)
    decreases |s|
  {
    if |s| > 0 {
      SortSorted(s[1..], le);
      InsertSorted(s[0], Sort(s[1..], le), le);
    }
  }

  /** Members of a sorted result are exactly the members of the input. */
  lemma SortMembers<T>(s: seq<T>, le: (T, T) -> bool)
    ensures forall x :: x in Sort(s, le) <==> x in s
  {
    var r := Sort(s, le);
    forall x
      ensures x in r <==> x in s
    {
      assert x in r <==> x in multiset(r);
      assert x in s <==> x in multiset(s);
    }
  }

  /** No value occurs twice. */
  predicate Distinct<T(==)>(s: seq<T>) {
    forall i, j :: 0 <= i < j < |s| ==> s[i] != s[j]
  }

  lemma {:induction false} DistinctIffSingleCounts<T>(s: seq<T>)
    ensures Distinct(s) <==> forall x :: multiset(s)[x] <= 1
    decreases |s|
  {
    if |s| > 0 {
      var t := s[1..];
      assert s == [s[0]] + t;
      assert multiset(s) == multiset{s[0]} + multiset(t);
      DistinctIffSingleCounts(t);
      if Distinct(s) {
        assert Distinct(t) by {
          forall i, j | 0 <= i < j < |t|
            ensures t[i] != t[j]
          {
            assert t[i] == s[i + 1] && t[j] == s[j + 1];
          }
        }
        assert s[0] !in t by {
          forall k | 0 <= k < |t|
            ensures t[k] != s[0]
          {
            assert t[k] == s[k + 1];
          }
        }
      }
      if forall x :: multiset(s)[x] <= 1 {
        assert multiset(t)[s[0]] == 0 by {
          assert multiset(s)[s[0]] <= 1;
        }
        assert forall x :: multiset(t)[x] <= 1 by {
          forall x
            ensures multiset(t)[x] <= 1
          {
            assert multiset(s)[x] <= 1;
          }
        }
        forall i, j | 0 <= i < j < |s|
          ensures s[i] != s[j]
        {
          if i == 0 {
            assert s[j] == t[j - 1];
            assert s[j] in t;
          } else {
            assert s[i] == t[i - 1] && s[j] == t[j - 1];
          }
        }
      }
    }
  }

  /** Reordering keeps a sequence free of repeats. */
  lemma PermutationKeepsDistinct<T>(s: seq<T>, r: seq<T>)
    requires multiset(r) == multiset(s)
    requires Distinct(s)
    ensures Distinct(r)
  {
    DistinctIffSingleCounts(s);
    DistinctIffSingleCounts(r);
  }

  /** Index of the first occurrence of `x`. */
  function IndexOf<T(==)>(s: seq<T>, x: T): (i: nat)
    requires x in s
    ensures i < |s| && s[i] == x && x !in s[..i]
  {
    if s[0] == x then 0
    else
      var k := IndexOf(s[1..], x);
      assert s[..k + 1] == [s[0]] + s[1..][..k];
      k + 1
  }

  /** The first occurrence is found where it is. */
  lemma {:induction false} IndexOfAt<T>(s: seq<T>, x: T, m: nat)
    requires m < |s| && s[m] == x && x !in s[..m]
    ensures IndexOf(s, x) == m
    decreases m
  {
    if m > 0 {
      assert s[..m][0] == s[0];
      assert s[1..][..m - 1] == s[1..m];
      assert s[..m] == [s[0]] + s[1..m];
      IndexOfAt(s[1..], x, m - 1);
    }
  }
}

=== FILE: strings.dfy ===
/**
  String facts shared by the Python and JavaScript parts of the model:
  the lexicographic order Python's `<` on `str` and JavaScript's default
  `Array.prototype.sort` use, ASCII character classes, and the whitespace
  set of JavaScript's `\s` and `String.prototype.trim`.
 */
module Strings {
  import opened Sorting

  /** Lexicographic order by character code: the first differing character
      decides, and a proper prefix comes before its extensions. */
  predicate LexLess(a: string, b: string)
    decreases |a|
  {
    if |a| == 0 then |b| > 0
    else if |b| == 0 then false
    else if a[0] != b[0] then a[0] < b[0]
    else LexLess(a[1..], b[1..])
  }

  lemma {:induction false} LexLessIrreflexive(a: string)
    ensures !LexLess(a, a)
    decreases |a|
  {
    if |a| > 0 {
      LexLessIrreflexive(a[1..]);
    }
  }

  lemma {:induction false} LexLessTransitive(a: string, b: string, c: string)
    requires LexLess(a, b) && LexLess(b, c)
    ensures LexLess(a, c)
    decreases |a|
  {
    if |a| > 0 && |b| > 0 && |c| > 0 && a[0] == b[0] && b[0] == c[0] {
      LexLessTransitive(a[1..], b[1..], c[1..]);
    }
  }

  lemma {:induction false} LexLessConnected(a: string, b: string)
    ensures a == b || LexLess(a, b) || LexLess(b, a)
    decreases |a|
  {
    if |a| > 0 && |b| > 0 && a[0] == b[0] {
      LexLessConnected(a[1..], b[1..]);
      if a[1..] == b[1..] {
        assert a == [a[0]] + a[1..] && b == [b[0]] + b[1..];
      }
    }
  }

  lemma LexLessAsymmetric(a: string, b: string)
    requires LexLess(a, b)
    ensures !LexLess(b, a)
  {
    if LexLess(b, a) {
      LexLessTransitive(a, b, a);
      LexLessIrreflexive(a);
    }
  }

  /** Comparing two strings that start with equal-length blocks: the blocks
      decide unless they are equal, in which case the remainders do. */
  lemma {:induction false} LexLessAppend(p: string, s: string, q: string, t: string)
    requires |p| == |q|
    ensures LexLess(p + s, q + t) <==> LexLess(p, q) || (p == q && LexLess(s, t))
    decreases |p|
  {
    if |p| > 0 {
      assert (p + s)[0] == p[0] && (q + t)[0] == q[0];
      assert (p + s)[1..] == p[1..] + s && (q + t)[1..] == q[1..] + t;
      LexLessAppend(p[1..], s, q[1..], t);
      if p[0] == q[0] && p[1..] == q[1..] {
        assert p == [p[0]] + p[1..] && q == [q[0]] + q[1..];
      }
      if p == q {
        assert p[1..] == q[1..];
      }
    } else {
      assert p + s == s && q + t == t;
      LexLessIrreflexive(p);
    }
  }

  predicate IsAsciiLetter(c: char) {
    ('a' <= c <= 'z') || ('A' <= c <= 'Z')
  }

  predicate IsAsciiDigit(c: char) {
    '0' <= c <= '9'
  }

  /** The class `[a-zA-Z0-9]`. */
  predicate IsAsciiAlnum(c: char) {
    IsAsciiLetter(c) || IsAsciiDigit(c)
  }

  /** JavaScript's WhiteSpace and LineTerminator code points: the characters
      `\s` matches and `trim` removes. */
  predicate IsJsWhitespace(c: char) {
    || c == '\U{9}' || c == '\U{A}' || c == '\U{B}' || c == '\U{C}' || c == '\U{D}'
    || c == '\U{20}' || c == '\U{A0}' || c == '\U{1680}'
    || ('\U{2000}' <= c <= '\U{200A}')
    || c == '\U{2028}' || c == '\U{2029}' || c == '\U{202F}' || c == '\U{205F}'
    || c == '\U{3000}' || c == '\U{FEFF}'
  }

  predicate AllWhitespace(s: string) {
    forall i :: 0 <= i < |s| ==> IsJsWhitespace(s[i])
  }

  /** Number of whitespace characters at the start of `s`. */
  function LeadingWhitespace(s: string): (n: nat)
    ensures n <= |s|
    ensures AllWhitespace(s[..n])
    ensures n < |s| ==> !IsJsWhitespace(s[n])
  {
    if |s| == 0 || !IsJsWhitespace(s[0]) then 0
    else
      var m := LeadingWhitespace(s[1..]);
      assert s[..m + 1] == [s[0]] + s[1..][..m];
      assert m + 1 < |s| ==> s[m + 1] == s[1..][m];
      1 + m
  }

  /** Number of whitespace characters at the end of `s`. */
  function TrailingWhitespace(s: string): (n: nat)
    ensures n <= |s|
    ensures AllWhitespace(s[|s| - n..])
    ensures n < |s| ==> !IsJsWhitespace(s[|s| - n - 1])
  {
    if |s| == 0 || !IsJsWhitespace(s[|s| - 1]) then 0
    else
      var u := s[..|s| - 1];
      var m := TrailingWhitespace(u);
      assert s[|s| - (m + 1)..] == u[|u| - m..] + [s[|s| - 1]];
      assert m + 1 < |s| ==> s[|s| - (m + 1) - 1] == u[|u| - m - 1];
      1 + m
  }

  /** `String.prototype.trim`: the middle of `s` left once whitespace is
      removed from both ends. */
  function Trim(s: string): (r: string)
    ensures |r| > 0 ==> !IsJsWhitespace(r[0]) && !IsJsWhitespace(r[|r| - 1])
    ensures exists i, j :: 0 <= i <= j <= |s| && r == s[i..j]
                           && AllWhitespace(s[..i]) && AllWhitespace(s[j..])
  {
    var i := LeadingWhitespace(s);
    var t := s[i..];
    var n := TrailingWhitespace(t);
    var j := |s| - n;
    assert t[..|t| - n] == s[i..j];
    assert t[|t| - n..] == s[j..];
    t[..|t| - n]
  }

  /** Trimming leaves nothing exactly when the string is all whitespace. */
  lemma TrimEmptyIffBlank(s: string)
    ensures Trim(s) == "" <==> AllWhitespace(s)
  {
    var i := LeadingWhitespace(s);
    var t := s[i..];
    var n := TrailingWhitespace(t);
    assert Trim(s) == t[..|t| - n];
    if i < |s| {
      assert !IsJsWhitespace(s[i]);
      assert t[0] == s[i];
      assert forall k :: |t| - n <= k < |t| ==> IsJsWhitespace(t[k]) by {
        forall k | |t| - n <= k < |t|
          ensures IsJsWhitespace(t[k])
        {
          assert t[k] == t[|t| - n..][k - (|t| - n)];
        }
      }
      assert |t| - n > 0;
    } else {
      assert s[..i] == s;
      assert |t| == 0;
    }
  }

  /** The order of a default string sort: `a` may stand before `b`. Python's
      `sort(reverse=True)` uses it reversed. */
  predicate NotAfter(a: string, b: string) {
    !LexLess(b, a)
  }

  lemma NotAfterIsTotalPreorder()
    ensures TotalPreorder(NotAfter)
  {
    forall a: string, b: string
      ensures NotAfter(a, b) || NotAfter(b, a)
    {
      if LexLess(a, b) {
        LexLessAsymmetric(a, b);
      }
    }
    forall a: string, b: string, c: string | NotAfter(a, b) && NotAfter(b, c)
      ensures NotAfter(a, c)
    {
      LexLessConnected(a, b);
      LexLessConnected(b, c);
      if LexLess(c, a) {
        if a != b && b != c {
          LexLessTransitive(a, b, c);
          LexLessAsymmetric(a, c);
        }
      }
    }
  }

  /** Parts glued together with `sep` between them (`Array.prototype.join`). */
  function Join(parts: seq<string>, sep: char): string {
    if |parts| == 0 then ""
    else if |parts| == 1 then parts[0]
    else parts[0] + [sep] + Join(parts[1..], sep)
  }
}

=== FILE: wrappers.dfy ===
/** Failure-carrying values shared by the modules of this project. */
module Wrappers {

  /** An optional value: Python's `None`, a missing dictionary key, or a parse that failed. */
  datatype Option<+T> = None | Some(value: T)

  /** The outcome of an operation that either succeeds with a value or fails with an error. */
  datatype Result<+R, +E> = Success(value: R) | Failure(error: E)
}
